=== FILE: README.md ===
# StarCourier Web — a Dafny model of the game core

StarCourier Web is a browser text-adventure. A FastAPI back end holds the scene graph, the character
table and one progress row per player. A Vue/Pinia front end keeps the game session, the achievements
and the UI preferences, and reaches the back end through an axios client with a small response
cache, retries with exponential backoff and argument validation.

This project models the core of both halves and proves properties of the model:

- `api_cache.dfy`: the client's LRU response cache. It is a class over a JavaScript `Map`, with its
  keys in insertion order. A pure `CacheState` value specifies it.
- `api_retry.dfy`: `retryWithBackoff`, `checkHealth` and `waitForServer`. The remote call is a
  function from the attempt number to its outcome.
- `api_validation.dfy`: the argument validators and the batch checks, over a model of JavaScript
  values.
- `api_gateway.dfy`: `gameApi.startGame` and `gameApi.makeChoice`. Validation comes first, then the
  cache is cleared, then the POST is retried.
- `api_errors.dfy`: `formatErrorMessage`, `getErrorDetails` and `createUserFriendlyError`.
- `backend_game.dfy`: the scene and character tables and the `get_scene_data` lookup. It also holds
  the endpoints `start_game`, `make_choice`, `get_player_stats`, `get_scene` and `get_character`,
  over the in-memory `game_progress` table (a class).
- `game_store.dfy`: the Pinia game store (a class). It covers the session, its getters, and the save
  collection in `localStorage` with export and import.
- `achievements.dfy`: the achievements store. That is unlock, progress, the rule check after each
  choice and the completion percentage.
- `ui_store.dfy`: the UI store. That is notifications, modals, settings, and their persistence in
  `localStorage`.
- `config.py`: its derived settings properties and the per-environment settings classes, in
  `config.dfy`.
- `display.dfy`: `formatStat` and `getStatColor` of the front end's entry point.
- `text.dfy` and `wrappers.dfy`: string helpers (decimal rendering, ASCII lower-casing, strip, split,
  join) and `Option`/`Result`.

The clock, random ids, the network and browser storage are parameters:

- a time `now`;
- the generated id;
- the outcome of the i-th attempt of a request;
- the storage entry, a value the methods read and rewrite.

## Model

| member | source | states |
|---|---|---|
| ApiCache.Without | frontend/src/services/api.js:36-67 | Removing a key from the key order keeps exactly the other keys, keeps them distinct, and shrinks the order by one when the key was present |
| ApiCache.Lookup | frontend/src/services/api.js:36-53 | `get` answers a value iff the key is stored and younger than the TTL, and then it answers the stored value |
| ApiCache.SizeOfWellFormed | frontend/src/services/api.js:73-75 | In a well-formed map the key order is as long as the map, so `size()` counts entries |
| ApiCache.DeleteWellFormed | frontend/src/services/api.js:42-59 | `Map.delete` keeps the map well formed; it shortens the order by one for a present key and does nothing otherwise |
| ApiCache.PutWellFormed | frontend/src/services/api.js:55-67 | `Map.set` keeps the map well formed; it grows the order only for a new key |
| ApiCache.AfterGetWellFormed | frontend/src/services/api.js:36-53 | `get` keeps the map well formed |
| ApiCache.AfterGet | frontend/src/services/api.js:36-53 | `get` deletes exactly a stored but expired key and never changes a stored value |
| ApiCache.GetHitMovesToEnd | frontend/src/services/api.js:40-45 | A hit moves the key to the most-recent end and keeps every entry |
| ApiCache.GetExpiredDeletes | frontend/src/services/api.js:47-52 | An expired entry answers `null` and is removed from the map and from the key order |
| ApiCache.SetBounded | frontend/src/services/api.js:55-67 | `set` keeps the map well formed and never takes it past `maxSize` |
| ApiCache.AfterSet | frontend/src/services/api.js:55-67 | `set` stores the new entry under the key, changes no other value, and drops no other key except the oldest at capacity |
| ApiCache.SetEvictsOldestEvenIfPresent | frontend/src/services/api.js:56-60 | At capacity `set` evicts the oldest key even when the key being set is already present, which leaves one entry fewer; a new key goes to the end behind the survivors and the size stays the same |
| ApiCache.SetPresentKeepsPosition | frontend/src/services/api.js:62-66 | Below capacity, re-setting a present key keeps its position and refreshes only its entry |
| ApiCache.SetNewKeyAppends | frontend/src/services/api.js:62-66 | Below capacity, a new key is stored with its entry and goes to the most-recent end of the order |
| ApiCache.GetAfterSet | frontend/src/services/api.js:36-67 | A value just stored is what `get` returns at the same instant, for any positive TTL |
| ApiCache.LRUCache.constructor | frontend/src/services/api.js:29-34 | A new cache is empty and keeps the given size and TTL |
| ApiCache.LRUCache.MapDelete | frontend/src/services/api.js:42-59 | The wrapped map becomes `Delete` of the old one and stays well formed |
| ApiCache.LRUCache.MapSet | frontend/src/services/api.js:62-66 | The wrapped map becomes `Put` of the old one and stays well formed |
| ApiCache.LRUCache.Get | frontend/src/services/api.js:36-53 | Answers `Lookup` of the old map and leaves the map as `AfterGet` says, keeping the invariant |
| ApiCache.LRUCache.Set | frontend/src/services/api.js:55-67 | Leaves the map as `AfterSet` says, keeping the invariant |
| ApiCache.LRUCache.Clear | frontend/src/services/api.js:69-71 | Empties the map; the size is then 0 |
| ApiCache.LRUCache.Size | frontend/src/services/api.js:73-75 | The number of keys, expired ones included |
| ApiRetry.RetryFrom | frontend/src/services/api.js:152-166 | Between 1 and retries+1 calls; the outcome is the last call's; every earlier call failed; a failure means all calls were used; the waits double |
| ApiRetry.RetryWithBackoff | frontend/src/services/api.js:152-166 | From the first call: at most retries+1 calls, stopping at the first success and passing on its outcome, or else the last call's error after all calls; one doubling wait between calls |
| ApiRetry.DelaysDouble | frontend/src/services/api.js:160-163 | Doubling waits are `delay * 2^i` |
| ApiRetry.RetryDelays | frontend/src/services/api.js:152-166 | The i-th wait of a run is `delay * 2^i`, and there is one wait fewer than calls |
| ApiRetry.RetryReturnsFirstSuccess | frontend/src/services/api.js:152-166 | When call k is the first to succeed, the run returns its value after exactly k+1 calls |
| ApiRetry.RetryExhausted | frontend/src/services/api.js:152-166 | When every allowed call fails, the last error is propagated unchanged after retries+1 calls |
| ApiRetry.CheckHealth | frontend/src/services/api.js:450-454 | A health check makes between 1 and 4 requests (the default policy) |
| ApiRetry.Answer | frontend/src/services/api.js:236-239 | A resolved run is a success with its value; a rejected one is a failure with the error message behind the prefix |
| ApiRetry.HealthAnswer | frontend/src/services/api.js:450-461 | `checkHealth` succeeds iff its retried request does, with the response data; otherwise it fails with the error message behind `Проверка состояния сервера не удалась: ` |
| ApiRetry.HealthAnswerFromProbes | frontend/src/services/api.js:450-461 | `checkHealth` succeeds iff one of the four requests does, with the data of the first that does; otherwise its error is the prefixed error of the fourth |
| ApiRetry.PollHealth | frontend/src/services/api.js:466-480 | Succeeds iff some check within `maxAttempts` succeeds; success is at the first succeeding check; otherwise it fails with the fixed error after all attempts; sleeps exactly once between consecutive checks, `attempts - 1` times in all; counts the requests |
| ApiRetry.WaitForServer | frontend/src/services/api.js:466-480 | `PollHealth` over `checkHealth`: the same promises in terms of the health probe, `attempts - 1` sleeps included |
| ApiValidation.Message | frontend/src/services/api.js:176-212 | Every validation error has a non-empty message |
| ApiValidation.ValidatePlayerId | frontend/src/services/api.js:176-180 | Passes iff the id is a string of at least 5 characters |
| ApiValidation.ValidateSceneId | frontend/src/services/api.js:186-190 | Passes iff the id is a non-empty string |
| ApiValidation.ValidateCharacterId | frontend/src/services/api.js:330-334 | Passes iff the id is a non-empty string |
| ApiValidation.CheckStat | frontend/src/services/api.js:203-210 | One stat passes iff it is a number, not NaN, within [-1000, 1000] |
| ApiValidation.Entries | frontend/src/services/api.js:202 | `Object.entries` gives an object's fields, or an array's elements in order |
| ApiValidation.FirstBadStat | frontend/src/services/api.js:202-210 | No error iff every entry passes |
| ApiValidation.ValidateStats | frontend/src/services/api.js:196-212 | A falsy or non-object value is rejected; otherwise it passes iff every value passes |
| ApiValidation.FirstBadStatIsFirst | frontend/src/services/api.js:202-210 | The reported error is the one of the first failing entry |
| ApiValidation.FirstBadStatIndex | frontend/src/services/api.js:202-210 | Names the position of that first failing entry |
| ApiValidation.StatErrorKinds | frontend/src/services/api.js:203-209 | A non-number or NaN is an invalid value; an infinity or a number out of range is out of range |
| ApiValidation.FirstBadId | frontend/src/services/api.js:357-361 | None iff every element is a non-empty string; otherwise it is the first element that is not |
| ApiValidation.IdStrings | frontend/src/services/api.js:364 | The strings of an all-good list, one per element, none empty |
| ApiValidation.ValidateBatch | frontend/src/services/api.js:350-372 | A non-array or empty list is rejected; a bad element is rejected with the per-id error; otherwise it gives exactly the listed ids |
| ApiValidation.BatchQueryRoundTrip | frontend/src/services/api.js:364 | Without commas in the ids, splitting the query value at commas gives back the validated list |
| ApiGateway.StatsArgument | frontend/src/services/api.js:245 | An omitted `stats` becomes the empty object `{}`; any other argument is kept |
| ApiGateway.ChoiceError | frontend/src/services/api.js:245-251 | No error iff all three validators pass, the stats validator seeing the defaulted argument; the player id is checked first |
| ApiGateway.OmittedStatsAccepted | frontend/src/services/api.js:245-251 | Omitting `stats` is the same as passing `{}`, which passes validation |
| ApiGateway.StartGame | frontend/src/services/api.js:222-240 | A bad id fails with no request and the cache untouched; otherwise the cache is emptied and the answer is that of the retried POST |
| ApiGateway.MakeChoice | frontend/src/services/api.js:245-267 | The same, with the three checks in order and `stats` defaulting to `{}` |
| ApiErrors.Candidates | frontend/src/services/api.js:522-531 | Three candidate texts, the error's own message last |
| ApiErrors.FormatErrorMessage | frontend/src/services/api.js:517-535 | A string is returned as is; an error object always gives a non-empty text |
| ApiErrors.FirstNonEmpty | frontend/src/services/api.js:522-534 | The first non-empty text, or the fallback when all are empty |
| ApiErrors.FormatErrorMessagePriority | frontend/src/services/api.js:517-535 | An error object's text is the first non-empty of backend `error`, backend `detail`, own message, else the fixed unknown-error text |
| ApiErrors.BackendErrorWins | frontend/src/services/api.js:522-524 | A non-empty backend `error` field is the text, whatever else the error carries |
| ApiErrors.GetErrorDetails | frontend/src/services/api.js:540-560 | The message is the formatted one; status, status text, URL, method and code are present iff the error carries them (non-empty), each then with the error's own value; the network flag follows `isAxiosError` |
| ApiErrors.Classify | frontend/src/services/api.js:568-584 | 404, 500 and 429 pick their own case; otherwise the network case iff it is an axios error |
| ApiErrors.ContextSuffix | frontend/src/services/api.js:569-586 | Empty iff no context is given |
| ApiErrors.CreateUserFriendlyError | frontend/src/services/api.js:565-587 | The text of each case with the context spliced in, the default case being the formatted message |
| ApiErrors.StatusBeforeNetwork | frontend/src/services/api.js:568-583 | A 404/500/429 status is reported as such even for an axios error |
| ApiErrors.ContextSplice | frontend/src/services/api.js:565-587 | The text with a context is the text without one, with ` (context)` inserted at one position |
| ApiErrors.DefaultIsFormattedMessage | frontend/src/services/api.js:585-586 | Without a context the default case is exactly the formatted message |
| BackendGame.GetSceneData | backend/app/main.py:659-676 | Echoes the requested id and gives that scene's content, or the start scene's for an unknown id |
| BackendGame.GetScene | backend/app/main.py:438-454 | Succeeds iff the scene exists, with its data; otherwise 404 |
| BackendGame.DanglingChoiceFallsBack | backend/app/main.py:149-194 | Nine choice targets, `artifact_guard` among them, are not scenes: GET answers 404 for each, and a choice of one shows the start scene under that id |
| BackendGame.GetCharacter | backend/app/main.py:560-583 | Succeeds iff the character exists, with its id and its name, role, relationship and description from the table; otherwise 404 with the id in the detail |
| BackendGame.Clamp | backend/app/main.py:483 | Lands in [0, 100] and is the identity inside it |
| BackendGame.ApplyChanges | backend/app/main.py:480-484 | The stat loop keeps the stat keys |
| BackendGame.ApplyChangesEffect | backend/app/main.py:480-484 | With distinct keys, each known changed stat becomes the clamped sum and every other stat is unchanged |
| BackendGame.ApplyChangesBounds | backend/app/main.py:480-484 | Every changed stat ends in [0, 100], money included |
| BackendGame.Defeated | backend/app/main.py:494 | On stats that are not negative (as clamping keeps them), game over iff health or morale is 0 |
| BackendGame.MoneyClampedByFirstChange | backend/app/main.py:480-484 | Any first change to the starting 1000 money leaves at most 100, and exactly 100 for every gain and every loss up to 900 |
| BackendGame.InitialProgress | backend/app/main.py:399-413 | A new row is at `start` with no choices made and the initial stat keys |
| BackendGame.ChoiceAnswer | backend/app/main.py:491-508 | The answer is game over iff health or morale is 0 or less; otherwise it is the next scene, the updated stats and the row's relationships |
| BackendGame.AfterChoice | backend/app/main.py:480-488 | The row moves to the next scene and counts one more choice; stat keys, relationships and inventory are kept |
| BackendGame.UpdateStats | backend/app/main.py:480-484 | The loop computes `ApplyChanges` |
| BackendGame.ReplaceKeepsBound | backend/app/main.py:480-488 | Rewriting a present row keeps the table within its bound |
| BackendGame.GameServer.constructor | backend/app/main.py:269 | The table starts empty |
| BackendGame.GameServer.StartGame | backend/app/main.py:378-436 | 429 and no change once the table holds `max_active_games` rows; otherwise the player's row is (re)initialised and the start scene, stats and relationships are answered |
| BackendGame.GameServer.MakeChoice | backend/app/main.py:457-516 | 404 for an unknown player; otherwise the row becomes `AfterChoice` and the answer is `ChoiceAnswer` of it |
| BackendGame.GameServer.GetPlayerStats | backend/app/main.py:519-542 | 404 iff the player is unknown; otherwise the row's scene, stats, relationships, inventory and count |
| BackendGame.StatsAfterStart | backend/app/main.py:399-413 | Right after a start the player's stats are the starting ones: scene `start`, no choices made |
| BackendGame.StartKeepsBound | backend/app/main.py:391-413 | Starting never takes the table past the bound |
| Config.CorsOriginsList | backend/app/config.py:53-56 | One origin per comma plus one: origin i is comma piece i of the setting, stripped |
| Config.CorsOriginsClean | backend/app/config.py:53-56 | No origin contains a comma, and each is stripped of whitespace at both ends |
| Config.CorsOriginsJoin | backend/app/config.py:51-56 | Without whitespace, the origins joined by commas give back the setting |
| Config.EnvironmentClassification | backend/app/config.py:161-173 | The three environment tests exclude each other and ignore case |
| Config.IsProduction | backend/app/config.py:161-163 | A production environment, in any case, is a 10-letter name that is neither development nor staging |
| Config.IsDevelopment | backend/app/config.py:166-168 | A development environment, in any case, is an 11-letter name that is not staging |
| Config.IsStaging | backend/app/config.py:171-173 | A staging environment, in any case, is a 7-letter name |
| Config.DatabaseConnectionString | backend/app/config.py:176-183 | Postgresql in production gets `?sslmode=require`; every other setup gets the URL as is |
| Config.GetDatabaseUrl | backend/app/config.py:204-221 | The connection string, with an echo parameter only when echo is both requested and configured |
| Config.AppendQuery | backend/app/config.py:216-219 | Appending a query to a URL without one leaves exactly one `?` |
| Config.ConnectionStringQueries | backend/app/config.py:176-183 | For a database URL without `?`, the connection string holds at most one `?` |
| Config.DatabaseUrlSingleQuery | backend/app/config.py:204-221 | For a URL without `?`, the database URL holds at most one `?` |
| Config.ApiUrl | backend/app/config.py:186-188 | `http://`, the host, `:`, the port's decimal text, then the API prefix |
| Config.ApiUrlPortReadBack | backend/app/config.py:186-188 | The port part of the URL reads back as the port: its digits, after a `-` for a negative port, have the port's value |
| Config.DefaultApiUrl | backend/app/config.py:186-188 | The defaults give `http://0.0.0.0:8000/api` |
| Config.GetSettingsByEnv | backend/app/config.py:298-317 | The lower-cased environment (default: the base one) picks the production, staging or development class; anything else is development |
| Config.KindDefaults | backend/app/config.py:273-295 | The debug, auth, cache and echo defaults of each class; all inherit the base environment |
| Config.ProductionDefaultsClassifyAsDevelopment | backend/app/config.py:281-287 | The production class alone still says `development`, so it is not production and its postgresql URL gets no TLS suffix |
| Config.DevelopmentEchoUrl | backend/app/config.py:204-221 | The development class with echo requested yields `sqlite:///./starcourier.db?echo=true` |
| Display.FormatStat | frontend/src/main.js:69-71 | The value clamped into [0, max]: itself inside, 0 below, max above |
| Display.FormatPercentStat | frontend/src/main.js:69-71 | With the default maximum the result lies in [0, 100] |
| Display.FormatStatIdempotent | frontend/src/main.js:69-71 | Formatting twice is formatting once |
| Display.GetStatColor | frontend/src/main.js:76-81 | Green iff >= 70, yellow iff in [40, 70), orange iff in [20, 40), red iff < 20 |
| Display.StatColorMonotone | frontend/src/main.js:76-81 | A larger value never gets a worse colour |
| GameStore.SetAdd | frontend/src/store/game.js:211 | `Set.add` keeps the set without repeats, adds exactly the element and grows only for a new one |
| GameStore.Playtime | frontend/src/store/game.js:92-95 | 0 without a start time, otherwise whole seconds since the start |
| GameStore.GameSummary | frontend/src/store/game.js:112-122 | The summary carries the session's id, scene, count, stats, relationships, visited scenes and inventory |
| GameStore.SlotRecords | frontend/src/store/game.js:412-422 | The stored list, or empty when the entry is missing or unreadable |
| GameStore.SaveName | frontend/src/store/game.js:325 | The given name, or `Сохранение #n` numbered after the known saves |
| GameStore.MakeRecord | frontend/src/store/game.js:322-335 | The record has the given id and name and the current playtime |
| GameStore.Restore | frontend/src/store/game.js:369-377 | Loading marks the game started and keeps the fields a save does not hold |
| GameStore.FindSave | frontend/src/store/game.js:363 | None iff no record has the id; otherwise a listed record with that id |
| GameStore.RemoveSave | frontend/src/store/game.js:397 | Keeps exactly the records with another id |
| GameStore.FindAppended | frontend/src/store/game.js:338-339 | A record appended with a fresh id is the one found by that id |
| GameStore.SaveLoadRoundTrip | frontend/src/store/game.js:319-386 | Loading a just-saved record restores the session it was saved from (the saved fields) |
| GameStore.RemoveSaveConcat | frontend/src/store/game.js:397 | Deleting keeps the surviving records in order |
| GameStore.RemoveUnknownSave | frontend/src/store/game.js:397 | Deleting an unknown id leaves the list as it was |
| GameStore.ImportedSaves | frontend/src/store/game.js:467 | The imported saves, or none when the data holds none |
| GameStore.Started | frontend/src/store/game.js:130-172 | After a start: started, the new id, the reply's scene (id and content), stats and relationships, `start` as the only visited scene, the start time set; inventory and session duration kept |
| GameStore.Advanced | frontend/src/store/game.js:204-211 | After a choice: the reply's scene (id and content), stats, relationships and count; the next scene added to the visited set; started flag, id, inventory, start time and session duration kept |
| GameStore.OrDefault | frontend/src/store/game.js:166 | The error message, or the fallback when it is empty |
| GameStore.Store.constructor | frontend/src/store/game.js:12-73 | The initial state over the existing storage entry |
| GameStore.Store.ResetGame | frontend/src/store/game.js:275-313 | The session is back to its defaults; the saves, storage and auto-save flag are kept |
| GameStore.Store.InitializeGame | frontend/src/store/game.js:130-172 | On success the session is `Started`; on failure the error is recorded; loading ends either way; the visited set keeps `start` |
| GameStore.Store.MakeChoice | frontend/src/store/game.js:179-229 | A successful reply leaves the session as `AfterReply` says (unchanged for game over, `Advanced` otherwise); failure records the error |
| GameStore.Store.LoadAllSavedGames | frontend/src/store/game.js:412-422 | Reads the entry and mirrors it in `savedGames`; nothing else changes |
| GameStore.Store.SaveGame | frontend/src/store/game.js:319-352 | Appends the record of the current session to the stored list and mirrors it; the session is unchanged |
| GameStore.Store.LoadGame | frontend/src/store/game.js:358-386 | A found record is restored into the session; an unknown id is an error and the session is unchanged |
| GameStore.Store.DeleteSave | frontend/src/store/game.js:392-407 | The stored list loses exactly that id's records |
| GameStore.Store.ClearAllSaves | frontend/src/store/game.js:427-439 | The entry is removed and the list is empty |
| GameStore.Store.ExportGameData | frontend/src/store/game.js:444-453 | The bundle has the export version, the saves and the game summary |
| GameStore.Store.ImportGameData | frontend/src/store/game.js:458-477 | Unparsable data and a missing version are rejected with nothing changed; otherwise the saves are installed and stored |
| GameStore.ImportOfExport | frontend/src/store/game.js:444-477 | Importing an export succeeds and installs exactly the exported saves |
| GameStore.DefaultStatsMatchBackend | frontend/src/store/game.js:29-56 | The front end's default stats and inventory are those `start_game` gives |
| GameStore.DefaultRelationshipsMatchBackend | frontend/src/store/game.js:46-50 | The front end's default relationships are the characters' initial values on the back end |
| GameStore.GameOverAgrees | frontend/src/store/game.js:78-80 | On a stats map holding both keys the front end's game-over test agrees with the back end's; a fresh session is not over |
| GameStore.AfterReply | frontend/src/store/game.js:194-211 | A game-over reply leaves the session as it was; an ordinary reply makes it `Advanced` with the reply's scene and stats |
| GameStore.GameOverReplyNotSeen | frontend/src/store/game.js:194-200 | When the back end ends the game the store does not become over, although the same stats in an ordinary reply would end it |
| GameStore.IsGameOver | frontend/src/store/game.js:78-80 | A session missing both stats is never over; with both present it is over iff the back end's `Defeated` says so |
| Achievements.Unlock | frontend/src/store/achievements.js:80-86 | Adds the id to the unlocked set and touches nothing else |
| Achievements.UpdateProgress | frontend/src/store/achievements.js:91-99 | An untracked id changes nothing; a tracked one gets the new progress and unlocks iff the target is reached |
| Achievements.DistinctCount | frontend/src/store/achievements.js:126-127 | The number of distinct visited scenes, at most the list length |
| Achievements.Check | frontend/src/store/achievements.js:104-128 | Checking only adds achievements, only known ones, and keeps the definitions; CheckRules gives the rules it applies |
| Achievements.CheckRules | frontend/src/store/achievements.js:104-123 | First choice, survivor and trusted friend unlock iff already unlocked or their condition holds |
| Achievements.ExplorerProgress | frontend/src/store/achievements.js:126-127 | Explorer progress is the distinct-scene count, which is the list length for a visited set |
| Achievements.DistinctOfNoRepeats | frontend/src/store/achievements.js:126-127 | A list without repeats has as many distinct elements as entries |
| Achievements.MissingMoneyStopsTracking | frontend/src/store/achievements.js:91-99 | Missing money sets the progress to undefined and stops all later tracking of that achievement |
| Achievements.Percentage | frontend/src/store/achievements.js:70-73 | The percentage rounded half up |
| Achievements.PercentageOfFive | frontend/src/store/achievements.js:70-73 | With five achievements each one is worth 20 % |
| Achievements.CompletionBounded | frontend/src/store/achievements.js:70-73 | Over known ids the percentage lies in [0, 100] |
| Achievements.AchievementsStore.constructor | frontend/src/store/achievements.js:9-52 | The initial definitions, with nothing unlocked |
| Achievements.AchievementsStore.UnlockAchievement | frontend/src/store/achievements.js:80-86 | Reports true iff the id was new, and the state becomes `Unlock` |
| Achievements.AchievementsStore.UpdateProgressOf | frontend/src/store/achievements.js:91-99 | The state becomes `UpdateProgress` |
| Achievements.AchievementsStore.CheckAchievements | frontend/src/store/achievements.js:104-128 | The state becomes `Check` of the session |
| Achievements.AchievementsStore.UnlockIfTrusted | frontend/src/store/achievements.js:119-123 | The loop over relationships unlocks trusted friend iff some value reaches 100 |
| Achievements.AchievementsStore.CompletionPercentage | frontend/src/store/achievements.js:70-73 | The rounded share of the five, within [0, 100] |
| UiStore.Active | frontend/src/store/ui.js:79-81 | The filter never lengthens the list |
| UiStore.ActiveMembers | frontend/src/store/ui.js:79-81 | A notification is shown iff it is in the list and active |
| UiStore.ActiveConcat | frontend/src/store/ui.js:79-81 | Filtering distributes over concatenation, so order is kept |
| UiStore.IndexOf | frontend/src/store/ui.js:141 | The first index with the id, or none when no notification has it |
| UiStore.Deactivate | frontend/src/store/ui.js:140-148 | Keeps the list length |
| UiStore.KindOrInfo | frontend/src/store/ui.js:118 | The given kind, or `info` when it is empty |
| UiStore.AddedIsShown | frontend/src/store/ui.js:113-135 | A new notification is shown last |
| UiStore.RemoveHides | frontend/src/store/ui.js:140-148 | An unknown id changes nothing; otherwise exactly that notification leaves the shown list, and with distinct ids none with the id remains shown |
| UiStore.DeactivateAt | frontend/src/store/ui.js:140-148 | Deactivating one position drops exactly that notification from the shown list, keeping the order of the rest |
| UiStore.DeactivatedNotShown | frontend/src/store/ui.js:140-148 | With distinct ids, after deactivating the one with the id no shown notification has it |
| UiStore.SetModal | frontend/src/store/ui.js:270-285 | Keeps the modal names, sets the named flag and leaves the others |
| UiStore.Toggled | frontend/src/store/ui.js:290-294 | Keeps the modal names, flips the named flag and leaves the others |
| UiStore.ToggleTwice | frontend/src/store/ui.js:290-294 | Toggling twice restores the modals |
| UiStore.OpenShows | frontend/src/store/ui.js:270-285 | Opening makes some modal open; after closing, one is open iff another was |
| UiStore.Merge | frontend/src/store/ui.js:365-371 | An empty update leaves the settings alone |
| UiStore.Full | frontend/src/store/ui.js:397-431 | A full snapshot, merged over any settings, gives the snapshotted settings |
| UiStore.MergeOverrides | frontend/src/store/ui.js:365-371 | Each given field overrides, each missing one is kept, and applying the same update twice is applying it once |
| UiStore.AutoSave | frontend/src/store/ui.js:386-392 | Sets the flag; replaces the interval only when one is given and non-zero; keeps the rest |
| UiStore.Snapshot | frontend/src/store/ui.js:397-411 | Stores all four flags (dark mode, sidebar, sound, music) and every setting |
| UiStore.LoadPrefs | frontend/src/store/ui.js:416-431 | Nothing stored (or unreadable) leaves the preferences as they are |
| UiStore.SaveLoadRoundTrip | frontend/src/store/ui.js:397-431 | Loading what was saved gives back the saved preferences |
| UiStore.LoadKeepsMissingKeys | frontend/src/store/ui.js:416-431 | Keys missing from the stored object keep their current values |
| UiStore.UiStore.constructor | frontend/src/store/ui.js:11-73 | No notifications, all modals closed, the default preferences |
| UiStore.UiStore.ActiveNotifications | frontend/src/store/ui.js:79-81 | The active notifications of the store |
| UiStore.UiStore.IsModalOpen | frontend/src/store/ui.js:86-88 | True iff some modal is open |
| UiStore.UiStore.AddNotification | frontend/src/store/ui.js:113-135 | Appends an active notification with the kind defaulted, returns its id, and changes nothing else |
| UiStore.UiStore.RemoveNotification | frontend/src/store/ui.js:140-148 | The search loop deactivates the first notification with the id |
| UiStore.UiStore.ClearNotifications | frontend/src/store/ui.js:153-155 | Empties the list only |
| UiStore.UiStore.OpenModal | frontend/src/store/ui.js:270-275 | `SetModal(name, true)` and nothing else |
| UiStore.UiStore.CloseModal | frontend/src/store/ui.js:280-285 | `SetModal(name, false)` and nothing else |
| UiStore.UiStore.ToggleModal | frontend/src/store/ui.js:290-294 | `Toggled(name)` and nothing else |
| UiStore.UiStore.CloseAllModals | frontend/src/store/ui.js:299-303 | Every modal is closed, the names are kept, and none is open |
| UiStore.UiStore.SaveUiSettings | frontend/src/store/ui.js:397-411 | Stores the snapshot of the current preferences |
| UiStore.UiStore.UpdateSettings | frontend/src/store/ui.js:365-371 | Merges the update into the settings and saves |
| UiStore.UiStore.SetTextSize | frontend/src/store/ui.js:376-381 | A valid size is set and saved; an invalid one changes nothing |
| UiStore.UiStore.SetAutoSaveSettings | frontend/src/store/ui.js:386-392 | Applies `AutoSave` to the settings and saves |
| UiStore.UiStore.LoadUiSettings | frontend/src/store/ui.js:416-431 | The preferences become `LoadPrefs` of the stored entry; storage is unchanged |
| UiStore.UiStore.ResetUiSettings | frontend/src/store/ui.js:436-451 | The default preferences, saved |
| Text.NatToString | frontend/src/store/game.js:324-325 | A non-empty string of decimal digits without a leading zero |
| Text.NatToStringRoundTrip | frontend/src/store/game.js:324-325 | Reading the rendered digits back gives the number |
| Text.NegativeIntToString | backend/app/config.py:186-188 | A negative number renders as `-` and the digits of its absolute value, which read back as that value |
| Text.Lower | backend/app/config.py:163 | Same length; ASCII letters lowered, everything else kept |
| Text.Strip | backend/app/config.py:56 | No whitespace at either end; a string without whitespace is kept; only input characters |
| Text.StripIsInfix | backend/app/config.py:56 | `Strip` gives the input with a whitespace-only prefix and a whitespace-only suffix removed |
| Text.SplitLength | backend/app/config.py:56 | One piece more than separators |
| Text.SplitDropsSeparator | backend/app/config.py:56 | No piece contains the separator |
| Text.SplitJoin | backend/app/config.py:56 | Joining the pieces gives back the input |
| Text.JoinSplit | frontend/src/services/api.js:364 | Splitting a join of separator-free pieces gives back the pieces |

## Left out

- The HTTP transport is not modelled: axios, its interceptors and request timeouts. A request is the
  outcome of each attempt. `setTimeout` waits are returned as the list of delays, not slept.
- The clock, `Date.now()`, `new Date().toISOString()` and the random part of the player id are
  parameters.
- JSON serialisation, `localStorage` quota errors and other browser storage failures are not
  modelled. The storage entry is either missing, a parsed array, or unreadable.
- Floating point is not modelled. Stats and percentages are integers; `Math.round` in
  `completionPercentage` is rounding half up on exact rationals. The `gameProgress` and
  `playtimeFormatted` getters are left out for the same reason.
- Lower-casing and stripping are ASCII only. String lengths count characters, not UTF-16 units.
- ApiValidation.Message does not model how `${value}` renders a stat value inside the message text.
- ApiErrors.FormatErrorMessage does not model a `null` or `undefined` error (it would throw).
- Loading settings from the environment and from `.env` files is not modelled; the settings are a
  value.
- ApiRetry.RetryFrom does not model negative `retries`, which would recurse forever in the source.
- `gameApi.getScene`, `getPlayerStats`, `getAllCharacters`, the `handleApiCall` wrapper and the
  game store's `getPlayerStats`/`fetchScene` are left out. They are plain pass-through requests.
- The `show*` notification shortcuts, `setError`/`setLoading`, the dark-mode, sidebar, sound and
  music toggles, `debounce`, and performance helpers are not modelled. Each is a single field
  assignment or a wrapper of `AddNotification`.
- The timed auto-removal of notifications is left out, and so is the deferred splice that follows
  `removeNotification`. The model keeps the deactivated entry.
- `unlockedAchievementsList` is not modelled.
- Audio, the router, the Vite configuration and the admin endpoints of the back end are not modelled.
- The restart choice of the four ending scenes carries no `stats` key in the source; the model gives
  it an empty change list, so the difference in the scene's JSON (no key against `{}`) is not modelled.
- Scene text and images are not modelled, and neither is the row's `created_at` time. Only titles,
  characters and choices are kept.
- BackendGame.GameServer.Valid states only that each row holds health and morale, which the game-over
  test reads. It does not bound the other stats.
- UiStore.Merge takes a patch of optional fields. An update with explicit `undefined` values or with
  keys outside the settings object is not modelled.
- UiStore.LoadPrefs treats a stored key as present or absent; JavaScript's `hasOwnProperty`
  subtleties (inherited keys, `null` values) are not modelled.

## Behaviour worth knowing

These are properties of the code as written, each proved in the model:

- A choice that ends the game on the back end does not end it in the front-end store: the `game_over`
  reply carries no stats, the store keeps the stats it had, and its `isGameOver` stays false
  (GameStore.GameOverReplyNotSeen).
- The production settings class does not override `environment`. Its instances therefore classify
  as development unless the environment says otherwise (Config.ProductionDefaultsClassifyAsDevelopment).
- Stat updates clamp every stat to [0, 100], money included. The starting 1000 money drops to at most
  100 at the first change, and to exactly 100 for any gain or any loss up to 900
  (BackendGame.MoneyClampedByFirstChange), so the 5000-money achievement cannot be reached through the
  back end.
- Nine choices point at ids that are not scenes: `artifact_guard`, `crew_meeting`, `team_divided`,
  `secret_mission`, `lockdown_intruder`, `artifact_touch`, `pirate_deal`, `evacuate` and
  `li_confrontation`. Such a choice shows the start scene's content under that id
  (BackendGame.DanglingChoiceFallsBack).
- `start_game` answers 429 at capacity even for a player who already has a row
  (BackendGame.GameServer.StartGame).
- When money is missing, `updateProgress` stores `undefined` as the progress, and the rich-courier
  achievement is never tracked again (Achievements.MissingMoneyStopsTracking).

=== FILE: achievements.dfy ===
/**
 * The achievements store of the front end (frontend/src/store/achievements.js): the set of unlocked
 * ids, the five achievement definitions with their progress counters, `unlockAchievement`,
 * `updateProgress`, `checkAchievements` and the `completionPercentage` getter.
 */
module Achievements {
  import opened Wrappers
  import GameStore

  /**
   * One achievement. `progress` is `None` when the field is `undefined`: achievements defined
   * without a counter, and counters that were once set to `undefined`.
   */
  datatype Achievement = Achievement(
    id: string,
    title: string,
    description: string,
    icon: string,
    secret: bool,
    progress: Option<int>,
    target: Option<int>)

  const FIRST_CHOICE: string := "first_choice"
  const EXPLORER: string := "explorer"
  const SURVIVOR: string := "survivor"
  const RICH_COURIER: string := "rich_courier"
  const TRUSTED_FRIEND: string := "trusted_friend"

  const ACHIEVEMENT_IDS: set<string> := {FIRST_CHOICE, EXPLORER, SURVIVOR, RICH_COURIER, TRUSTED_FRIEND}

  const DEFINITIONS: map<string, Achievement> := map[
    FIRST_CHOICE := Achievement(FIRST_CHOICE, "Первый выбор", "Сделайте свой первый выбор в игре", "🎯",
                                false, None, None),
    EXPLORER := Achievement(EXPLORER, "Исследователь", "Посетите 5 различных сцен", "🗺️",
                            false, Some(0), Some(5)),
    SURVIVOR := Achievement(SURVIVOR, "Выживший", "Выживите с менее чем 20% здоровья", "💪",
                            true, None, None),
    RICH_COURIER := Achievement(RICH_COURIER, "Богатый курьер", "Накопите 5000 кредитов", "💰",
                                false, Some(0), Some(5000)),
    TRUSTED_FRIEND := Achievement(TRUSTED_FRIEND, "Надёжный друг", "Достигните 100% доверия с любым персонажем",
                                  "🤝", false, None, None)]

  /** The store's state as one value. */
  datatype AchState = AchState(unlocked: set<string>, achievements: map<string, Achievement>)

  const INITIAL_STATE: AchState := AchState({}, DEFINITIONS)

  /** `unlockAchievement(id)` on the state. */
  function Unlock(st: AchState, id: string): (r: AchState)
    ensures r.unlocked == st.unlocked + {id} && r.achievements == st.achievements
  {
    st.(unlocked := st.unlocked + {id})
  }

  /** Whether `updateProgress` acts on `id`: a known achievement whose counter is defined. */
  predicate Tracked(st: AchState, id: string) {
    id in st.achievements && st.achievements[id].progress.Some?
  }

  /** Whether a new counter value reaches the target (`undefined >= n` is false). */
  predicate Reaches(a: Achievement, value: Option<int>) {
    value.Some? && a.target.Some? && value.value >= a.target.value
  }

  /** `updateProgress(id, value)` on the state. */
  function UpdateProgress(st: AchState, id: string, value: Option<int>): (r: AchState)
    ensures !Tracked(st, id) ==> r == st
    ensures Tracked(st, id) ==> r.achievements == st.achievements[id := st.achievements[id].(progress := value)]
    ensures Tracked(st, id) ==>
      r.unlocked == if Reaches(st.achievements[id], value) then st.unlocked + {id} else st.unlocked
  {
    if !Tracked(st, id) then st
    else
      var a := st.achievements[id];
      var st' := st.(achievements := st.achievements[id := a.(progress := value)]);
      if Reaches(a, value) then Unlock(st', id) else st'
  }

  /** Whether some character's relationship has reached 100. */
  predicate AnyTrusted(relationships: map<string, int>) {
    exists k :: k in relationships && relationships[k] >= 100
  }

  /** The number of distinct scenes in a visit list (`new Set(visitedScenes).size`). */
  function DistinctCount(scenes: seq<string>): (n: nat)
    ensures n <= |scenes|
  {
    SetSizeBound(scenes);
    |set s | s in scenes|
  }

  lemma {:induction false} SetSizeBound(scenes: seq<string>)
    ensures |set s | s in scenes| <= |scenes|
  {
    if scenes != [] {
      SetSizeBound(scenes[1..]);
      assert (set s | s in scenes) == (set s | s in scenes[1..]) + {scenes[0]};
    }
  }

  /** `health <= 20 && health > 0`, false when the stat is missing. */
  predicate Survives(stats: GameStore.Stats) {
    "health" in stats && 0 < stats["health"] <= 20
  }

  /** The money counter `checkAchievements` reports (`undefined` when the stat is missing). */
  function Money(stats: GameStore.Stats): Option<int> {
    if "money" in stats then Some(stats["money"]) else None
  }

  /**
   * `checkAchievements(gameStore)` on the state, step by step in the order of the code. No step
   * removes an id: the unlocked set only grows, and only by known ids.
   */
  function Check(st: AchState, s: GameStore.Session): (r: AchState)
    ensures st.unlocked <= r.unlocked <= st.unlocked + ACHIEVEMENT_IDS
    ensures r.achievements.Keys == st.achievements.Keys
  {
    var st1 := if s.choicesMade == 1 then Unlock(st, FIRST_CHOICE) else st;
    var st2 := if Survives(s.stats) then Unlock(st1, SURVIVOR) else st1;
    var st3 := UpdateProgress(st2, RICH_COURIER, Money(s.stats));
    var st4 := if AnyTrusted(s.relationships) then Unlock(st3, TRUSTED_FRIEND) else st3;
    UpdateProgress(st4, EXPLORER, Some(DistinctCount(s.visitedScenes)))
  }

  /**
   * The rules of `checkAchievements`: `first_choice` after exactly one choice, `survivor` at
   * health in (0, 20], `trusted_friend` once any relationship reaches 100.
   */
  lemma CheckRules(st: AchState, s: GameStore.Session)
    ensures FIRST_CHOICE in Check(st, s).unlocked <==> FIRST_CHOICE in st.unlocked || s.choicesMade == 1
    ensures SURVIVOR in Check(st, s).unlocked <==> SURVIVOR in st.unlocked || Survives(s.stats)
    ensures TRUSTED_FRIEND in Check(st, s).unlocked <==> TRUSTED_FRIEND in st.unlocked || AnyTrusted(s.relationships)
  {
  }

  /** While the explorer counter is defined it becomes the number of distinct visited scenes. */
  lemma ExplorerProgress(st: AchState, s: GameStore.Session)
    requires Tracked(st, EXPLORER)
    ensures EXPLORER in Check(st, s).achievements
    ensures Check(st, s).achievements[EXPLORER].progress == Some(DistinctCount(s.visitedScenes))
    ensures GameStore.NoRepeats(s.visitedScenes) ==> DistinctCount(s.visitedScenes) == |s.visitedScenes|
  {
    if GameStore.NoRepeats(s.visitedScenes) {
      DistinctOfNoRepeats(s.visitedScenes);
    }
  }

  lemma {:induction false} DistinctOfNoRepeats(scenes: seq<string>)
    requires GameStore.NoRepeats(scenes)
    ensures |set s | s in scenes| == |scenes|
  {
    if scenes != [] {
      DistinctOfNoRepeats(scenes[1..]);
      assert (set s | s in scenes) == (set s | s in scenes[1..]) + {scenes[0]};
      assert scenes[0] !in scenes[1..];
    }
  }

  /**
   * A missing `money` stat sets the rich-courier counter to `undefined`, after which no later
   * update of it has any effect.
   */
  lemma MissingMoneyStopsTracking(st: AchState, stats: GameStore.Stats, value: Option<int>)
    requires Tracked(st, RICH_COURIER) && "money" !in stats
    ensures !Tracked(UpdateProgress(st, RICH_COURIER, Money(stats)), RICH_COURIER)
    ensures var st' := UpdateProgress(st, RICH_COURIER, Money(stats));
      UpdateProgress(st', RICH_COURIER, value) == st'
  {
  }

  /** `Math.round(100 * unlocked / total)`, rounding halves up. */
  function Percentage(unlocked: nat, total: nat): (r: int)
    requires total > 0
    ensures 200 * unlocked - total < 2 * r * total <= 200 * unlocked + total
  {
    (200 * unlocked + total) / (2 * total)
  }

  /** With the five shipped achievements each unlocked id is worth exactly 20 percent. */
  lemma PercentageOfFive(unlocked: nat)
    ensures Percentage(unlocked, |ACHIEVEMENT_IDS|) == 20 * unlocked
  {
    assert |ACHIEVEMENT_IDS| == 5;
  }

  lemma {:induction false} SubsetSize(a: set<string>, b: set<string>)
    requires a <= b
    ensures |a| <= |b|
    decreases |b|
  {
    if a != {} {
      var x :| x in a;
      SubsetSize(a - {x}, b - {x});
    }
  }

  /** Unlocking only shipped achievements keeps the percentage within 0..100. */
  lemma CompletionBounded(unlocked: set<string>)
    ensures unlocked <= ACHIEVEMENT_IDS ==> 0 <= Percentage(|unlocked|, 5) <= 100
  {
    PercentageOfFive(|unlocked|);
    if unlocked <= ACHIEVEMENT_IDS {
      SubsetSize(unlocked, ACHIEVEMENT_IDS);
    }
  }

  class AchievementsStore {
    var unlockedAchievements: set<string>
    var achievements: map<string, Achievement>

    function State(): AchState
      reads this
    {
      AchState(unlockedAchievements, achievements)
    }

    /** The definitions never change their keys. */
    ghost predicate Valid()
      reads this
    {
      achievements.Keys == ACHIEVEMENT_IDS
    }

    constructor ()
      ensures Valid() && State() == INITIAL_STATE
    {
      unlockedAchievements := {};
      achievements := DEFINITIONS;
    }

    /** `unlockAchievement(id)`: true exactly when the id was not unlocked yet. */
    method UnlockAchievement(id: string) returns (added: bool)
      requires Valid()
      modifies this
      ensures Valid()
      ensures added <==> id !in old(unlockedAchievements)
      ensures State() == Unlock(old(State()), id)
    {
      if id !in unlockedAchievements {
        unlockedAchievements := unlockedAchievements + {id};
        return true;
      }
      return false;
    }

    /** `updateProgress(id, value)`. */
    method UpdateProgressOf(id: string, value: Option<int>)
      requires Valid()
      modifies this
      ensures Valid()
      ensures State() == UpdateProgress(old(State()), id, value)
    {
      if id in achievements && achievements[id].progress.Some? {
        var a := achievements[id];
        achievements := achievements[id := a.(progress := value)];
        if value.Some? && a.target.Some? && value.value >= a.target.value {
          var _ := UnlockAchievement(id);
        }
      }
    }

    /** `checkAchievements(gameStore)` against the game store's session. */
    method CheckAchievements(s: GameStore.Session)
      requires Valid()
      modifies this
      ensures Valid()
      ensures State() == Check(old(State()), s)
    {
      if s.choicesMade == 1 {
        var _ := UnlockAchievement(FIRST_CHOICE);
      }
      if "health" in s.stats && s.stats["health"] <= 20 && s.stats["health"] > 0 {
        var _ := UnlockAchievement(SURVIVOR);
      }
      UpdateProgressOf(RICH_COURIER, Money(s.stats));
      UnlockIfTrusted(s.relationships);
      UpdateProgressOf(EXPLORER, Some(DistinctCount(s.visitedScenes)));
    }

    /** The `forEach` over the relationship values inside `checkAchievements`. */
    method UnlockIfTrusted(relationships: map<string, int>)
      requires Valid()
      modifies this
      ensures Valid()
      ensures State() == if AnyTrusted(relationships) then Unlock(old(State()), TRUSTED_FRIEND) else old(State())
    {
      var rest := relationships.Keys;
      while rest != {}
        invariant Valid() && rest <= relationships.Keys && achievements == old(achievements)
        invariant unlockedAchievements ==
          if exists k :: k in relationships.Keys - rest && relationships[k] >= 100
          then old(unlockedAchievements) + {TRUSTED_FRIEND} else old(unlockedAchievements)
        decreases |rest|
      {
        var k :| k in rest;
        if relationships[k] >= 100 {
          var _ := UnlockAchievement(TRUSTED_FRIEND);
        }
        rest := rest - {k};
      }
    }

    /** The `completionPercentage` getter. */
    function CompletionPercentage(): (r: int)
      reads this
      requires Valid()
      ensures r == Percentage(|unlockedAchievements|, 5)
      ensures unlockedAchievements <= ACHIEVEMENT_IDS ==> 0 <= r <= 100
    {
      assert |achievements.Keys| == 5;
      CompletionBounded(unlockedAchievements);
      Percentage(|unlockedAchievements|, |achievements.Keys|)
    }
  }
}

=== FILE: api_cache.dfy ===
/**
 * The size-bounded, TTL-expiring response cache of the API client (class `LRUCache` in
 * frontend/src/services/api.js). The JavaScript `Map` it wraps is modelled by the sequence of its
 * keys in insertion order together with a map from keys to entries; the clock (`Date.now()`) is
 * the parameter `now`.
 */
module ApiCache {
  import opened Wrappers

  /** A cached value with the time it was stored. */
  datatype Entry<V> = Entry(value: V, timestamp: int)

  /** The contents of a JavaScript `Map`: its keys in insertion order and the entry of each key. */
  datatype CacheState<V> = CacheState(order: seq<string>, entries: map<string, Entry<V>>)

  /** The constructor defaults (100 entries, five minutes); `apiCache` uses the same values. */
  const DEFAULT_MAX_SIZE: int := 100
  const DEFAULT_TTL: int := 5 * 60 * 1000

  predicate Distinct(order: seq<string>) {
    forall i, j :: 0 <= i < j < |order| ==> order[i] != order[j]
  }

  /** A `Map`'s key order lists each of its keys exactly once. */
  predicate WellFormed<V>(s: CacheState<V>) {
    Distinct(s.order) && (forall k :: k in s.order ==> k in s.entries) && (forall k :: k in s.entries ==> k in s.order)
  }

  /** The key order with `k` removed (what `Map.delete` does to the iteration order). */
  function Without(order: seq<string>, k: string): (r: seq<string>)
    ensures forall x :: x in r <==> x in order && x != k
    ensures |r| <= |order|
    ensures k !in order ==> r == order
    ensures Distinct(order) ==> Distinct(r)
    ensures Distinct(order) && k in order ==> |r| == |order| - 1
  {
    if order == [] then []
    else if order[0] == k then Without(order[1..], k)
    else
      var rest := Without(order[1..], k);
      assert Distinct(order) ==> order[0] !in order[1..] && Distinct(order[1..]);
      assert Distinct(order) ==> forall j :: 0 <= j < |rest| ==> rest[j] != order[0];
      [order[0]] + rest
  }

  /** `Map.delete(k)`. */
  function Delete<V>(s: CacheState<V>, k: string): CacheState<V> {
    CacheState(Without(s.order, k), s.entries - {k})
  }

  /** `Map.set(k, e)`: an existing key keeps its position, a new key goes to the end. */
  function Put<V>(s: CacheState<V>, k: string, e: Entry<V>): CacheState<V> {
    if k in s.entries then CacheState(s.order, s.entries[k := e])
    else CacheState(s.order + [k], s.entries[k := e])
  }

  /** Whether `get` counts the entry of `key` as live at time `now`. */
  predicate Live<V>(s: CacheState<V>, key: string, now: int, ttl: int) {
    key in s.entries && now - s.entries[key].timestamp < ttl
  }

  /** What `get(key)` returns: the stored value of a live entry, otherwise `null`. */
  function Lookup<V>(s: CacheState<V>, key: string, now: int, ttl: int): (r: Option<V>)
    ensures r.Some? <==> key in s.entries && now - s.entries[key].timestamp < ttl
    ensures r.Some? ==> r.value == s.entries[key].value
  {
    if Live(s, key, now, ttl) then Some(s.entries[key].value) else None
  }

  /** The map after `get(key)`: a hit is re-inserted at the end, an expired entry is deleted. */
  function AfterGet<V>(s: CacheState<V>, key: string, now: int, ttl: int): (r: CacheState<V>)
    ensures r.entries.Keys == if key in s.entries && !Live(s, key, now, ttl) then s.entries.Keys - {key} else s.entries.Keys
    ensures forall k :: k in r.entries ==> r.entries[k] == s.entries[k]
  {
    if Live(s, key, now, ttl) then Put(Delete(s, key), key, s.entries[key])
    else if key in s.entries then Delete(s, key)
    else s
  }

  /** The map after `set(key, value)`: evict the first key when full, then `Map.set`. */
  function AfterSet<V>(s: CacheState<V>, key: string, value: V, now: int, maxSize: int): (r: CacheState<V>)
    ensures key in r.entries && r.entries[key] == Entry(value, now)
    ensures forall k :: k in r.entries && k != key ==> k in s.entries && r.entries[k] == s.entries[k]
    ensures forall k :: k in s.entries && k != key ==>
                          k in r.entries || (|s.entries| >= maxSize && [k] <= s.order)
  {
    var s1 := if |s.entries| >= maxSize && s.order != [] then Delete(s, s.order[0]) else s;
    Put(s1, key, Entry(value, now))
  }

  lemma {:induction false} DistinctSize(order: seq<string>)
    requires Distinct(order)
    ensures |set x | x in order| == |order|
  {
    if order != [] {
      DistinctSize(order[1..]);
      assert (set x | x in order) == {order[0]} + (set x | x in order[1..]);
      assert order[0] !in order[1..];
    }
  }

  /** In a well-formed map the size of the key order is the size of the map. */
  lemma SizeOfWellFormed<V>(s: CacheState<V>)
    requires WellFormed(s)
    ensures |s.order| == |s.entries|
  {
    DistinctSize(s.order);
    assert s.entries.Keys == set x | x in s.order;
  }

  lemma DeleteWellFormed<V>(s: CacheState<V>, k: string)
    requires WellFormed(s)
    ensures WellFormed(Delete(s, k))
    ensures k in s.entries ==> |Delete(s, k).order| == |s.order| - 1
    ensures k !in s.entries ==> Delete(s, k).order == s.order
  {
  }

  lemma PutWellFormed<V>(s: CacheState<V>, k: string, e: Entry<V>)
    requires WellFormed(s)
    ensures WellFormed(Put(s, k, e))
    ensures |Put(s, k, e).order| == |s.order| + (if k in s.entries then 0 else 1)
  {
    if k !in s.entries {
      var o := s.order + [k];
      forall i, j | 0 <= i < j < |o| ensures o[i] != o[j] {
        if j == |s.order| {
          assert o[i] == s.order[i];
        }
      }
    }
  }

  /** `get` keeps the map well formed. */
  lemma AfterGetWellFormed<V>(s: CacheState<V>, key: string, now: int, ttl: int)
    requires WellFormed(s)
    ensures WellFormed(AfterGet(s, key, now, ttl))
  {
    DeleteWellFormed(s, key);
    if Live(s, key, now, ttl) {
      PutWellFormed(Delete(s, key), key, s.entries[key]);
    }
  }

  /**
   * A hit moves `key` to the most-recent end and leaves the relative order of every other key
   * as it was; the entries are untouched.
   */
  lemma GetHitMovesToEnd<V>(s: CacheState<V>, key: string, now: int, ttl: int)
    requires Live(s, key, now, ttl)
    ensures AfterGet(s, key, now, ttl).order == Without(s.order, key) + [key]
    ensures Without(AfterGet(s, key, now, ttl).order, key) == Without(s.order, key)
    ensures AfterGet(s, key, now, ttl).entries == s.entries
  {
    var o := Without(s.order, key);
    var d := Delete(s, key);
    assert d.order == o && key !in d.entries;
    assert AfterGet(s, key, now, ttl) == CacheState(o + [key], d.entries[key := s.entries[key]]);
    WithoutAppend(o, key);
    assert d.entries[key := s.entries[key]] == s.entries;
  }

  lemma {:induction false} WithoutAppend(o: seq<string>, k: string)
    requires k !in o
    ensures Without(o + [k], k) == o
  {
    if o != [] {
      assert (o + [k])[1..] == o[1..] + [k];
      WithoutAppend(o[1..], k);
    } else {
      assert [k][1..] == [];
    }
  }

  /** An expired entry is deleted by `get`, which then answers `null`. */
  lemma GetExpiredDeletes<V>(s: CacheState<V>, key: string, now: int, ttl: int)
    requires key in s.entries && now - s.entries[key].timestamp >= ttl
    ensures Lookup(s, key, now, ttl) == None
    ensures key !in AfterGet(s, key, now, ttl).entries
    ensures key !in AfterGet(s, key, now, ttl).order
  {
  }

  /**
   * `set` never leaves more than `maxSize` entries (for a positive `maxSize`) and keeps the map
   * well formed.
   */
  lemma SetBounded<V>(s: CacheState<V>, key: string, value: V, now: int, maxSize: int)
    requires WellFormed(s) && 1 <= maxSize && |s.entries| <= maxSize
    ensures WellFormed(AfterSet(s, key, value, now, maxSize))
    ensures |AfterSet(s, key, value, now, maxSize).entries| <= maxSize
  {
    SizeOfWellFormed(s);
    var s1 := if |s.entries| >= maxSize && s.order != [] then Delete(s, s.order[0]) else s;
    if |s.entries| >= maxSize && s.order != [] {
      DeleteWellFormed(s, s.order[0]);
    }
    SizeOfWellFormed(s1);
    PutWellFormed(s1, key, Entry(value, now));
    SizeOfWellFormed(AfterSet(s, key, value, now, maxSize));
  }

  /**
   * When full, `set` deletes the oldest key even if `key` is already present: the map then
   * shrinks by one, and `key` keeps its position unless it was the oldest itself. A new key is
   * appended after the survivors, the size staying the same.
   */
  lemma SetEvictsOldestEvenIfPresent<V>(s: CacheState<V>, key: string, value: V, now: int, maxSize: int)
    requires WellFormed(s) && |s.entries| >= maxSize && s.order != []
    ensures s.order[0] != key ==> s.order[0] !in AfterSet(s, key, value, now, maxSize).entries
    ensures key in s.entries && s.order[0] != key ==>
      |AfterSet(s, key, value, now, maxSize).entries| == |s.entries| - 1
    ensures key in s.entries && s.order[0] != key ==>
      AfterSet(s, key, value, now, maxSize).order == s.order[1..]
    ensures s.order[0] == key ==> AfterSet(s, key, value, now, maxSize).order == s.order[1..] + [key]
    ensures key !in s.entries ==>
      AfterSet(s, key, value, now, maxSize).order == s.order[1..] + [key]
      && |AfterSet(s, key, value, now, maxSize).entries| == |s.entries|
  {
    var first := s.order[0];
    DeleteWellFormed(s, first);
    assert Without(s.order, first) == s.order[1..] by {
      assert first !in s.order[1..];
    }
    var s1 := Delete(s, first);
    PutWellFormed(s1, key, Entry(value, now));
    SizeOfWellFormed(s);
    SizeOfWellFormed(AfterSet(s, key, value, now, maxSize));
  }

  /** Below capacity, re-setting a present key keeps its position and only refreshes its entry. */
  lemma SetPresentKeepsPosition<V>(s: CacheState<V>, key: string, value: V, now: int, maxSize: int)
    requires key in s.entries && |s.entries| < maxSize
    ensures AfterSet(s, key, value, now, maxSize).order == s.order
    ensures AfterSet(s, key, value, now, maxSize).entries == s.entries[key := Entry(value, now)]
  {
  }

  /** Below capacity, a new key is stored and goes to the most-recent end of the order. */
  lemma SetNewKeyAppends<V>(s: CacheState<V>, key: string, value: V, now: int, maxSize: int)
    requires key !in s.entries && |s.entries| < maxSize
    ensures AfterSet(s, key, value, now, maxSize).order == s.order + [key]
    ensures AfterSet(s, key, value, now, maxSize).entries == s.entries[key := Entry(value, now)]
  {
  }

  /** A value just stored is what `get` returns at the same instant (any positive TTL). */
  lemma GetAfterSet<V>(s: CacheState<V>, key: string, value: V, now: int, maxSize: int, ttl: int)
    requires 0 < ttl
    ensures Lookup(AfterSet(s, key, value, now, maxSize), key, now, ttl) == Some(value)
  {
  }

  /** The cache object: `maxSize` and `ttl` are fixed at construction, the `Map` changes in place. */
  class LRUCache<V> {
    const maxSize: int
    const ttl: int
    var order: seq<string>
    var entries: map<string, Entry<V>>

    /** The wrapped `Map` as a value. */
    function State(): CacheState<V>
      reads this
    {
      CacheState(order, entries)
    }

    ghost predicate Valid()
      reads this
    {
      WellFormed(State()) && (1 <= maxSize ==> |entries| <= maxSize)
    }

    constructor (maxSize: int, ttl: int)
      ensures Valid()
      ensures this.maxSize == maxSize && this.ttl == ttl
      ensures State() == CacheState([], map[])
    {
      this.maxSize := maxSize;
      this.ttl := ttl;
      order := [];
      entries := map[];
    }

    /** `Map.delete(k)` on the wrapped map. */
    method MapDelete(k: string)
      requires WellFormed(State())
      modifies this
      ensures State() == Delete(old(State()), k)
      ensures WellFormed(State())
    {
      DeleteWellFormed(State(), k);
      order := Without(order, k);
      entries := entries - {k};
    }

    /** `Map.set(k, e)` on the wrapped map. */
    method MapSet(k: string, e: Entry<V>)
      requires WellFormed(State())
      modifies this
      ensures State() == Put(old(State()), k, e)
      ensures WellFormed(State())
    {
      PutWellFormed(State(), k, e);
      if k !in entries {
        order := order + [k];
      }
      entries := entries[k := e];
    }

    /** `get(key)` at time `now`. */
    method Get(key: string, now: int) returns (r: Option<V>)
      requires Valid()
      modifies this
      ensures Valid()
      ensures r == Lookup(old(State()), key, now, ttl)
      ensures State() == AfterGet(old(State()), key, now, ttl)
    {
      if key in entries && now - entries[key].timestamp < ttl {
        var item := entries[key];
        MapDelete(key);
        MapSet(key, item);
        r := Some(item.value);
      } else {
        if key in entries {
          MapDelete(key);
        }
        r := None;
      }
      SizeOfWellFormed(old(State()));
      SizeOfWellFormed(State());
    }

    /** `set(key, value)` at time `now`. */
    method Set(key: string, value: V, now: int)
      requires Valid()
      modifies this
      ensures Valid()
      ensures State() == AfterSet(old(State()), key, value, now, maxSize)
    {
      if |entries| >= maxSize && order != [] {
        MapDelete(order[0]);
      }
      MapSet(key, Entry(value, now));
      if 1 <= maxSize {
        SetBounded(old(State()), key, value, now, maxSize);
      }
    }

    /** `clear()`. */
    method Clear()
      requires Valid()
      modifies this
      ensures Valid()
      ensures State() == CacheState([], map[]) && Size() == 0
    {
      order := [];
      entries := map[];
    }

    /** `size()`: the number of entries, expired ones included. */
    function Size(): (n: nat)
      reads this
      requires Valid()
      ensures n == |State().order|
    {
      SizeOfWellFormed(State());
      |entries|
    }
  }
}

=== FILE: api_errors.dfy ===
/**
 * Error reporting helpers of the API client (frontend/src/services/api.js): `formatErrorMessage`,
 * `getErrorDetails` and `createUserFriendlyError`. An empty string stands for an absent or falsy
 * string field; the clock reading of `getErrorDetails` is a parameter.
 */
module ApiErrors {
  import opened Wrappers

  /** `error.response.data` as the backend sends it: an `error` or a `detail` text. */
  datatype ErrorBody = ErrorBody(error: string, detail: string)

  /** `error.response`: the HTTP status (0 when missing), its text and the parsed body. */
  datatype HttpResponse = HttpResponse(status: int, statusText: string, data: Option<ErrorBody>)

  /** `error.config`: the request that failed. */
  datatype RequestConfig = RequestConfig(url: string, httpMethod: string)

  /** What reaches the helpers: a bare string, or an `Error` (possibly an axios one). */
  datatype ApiError =
    | Text(text: string)
    | ErrorObject(message: string, response: Option<HttpResponse>, config: Option<RequestConfig>,
                  code: string, isAxiosError: bool)

  /** The object `getErrorDetails` builds; absent optional keys are `None` / `false`. */
  datatype ErrorDetails = ErrorDetails(
    message: string,
    status: Option<int>,
    statusText: Option<string>,
    url: Option<string>,
    httpMethod: Option<string>,
    timestamp: string,
    code: Option<string>,
    isNetworkError: bool)

  const UNKNOWN_ERROR: string := "Неизвестная ошибка"

  /** The texts `formatErrorMessage` considers for an error object, highest priority first. */
  function Candidates(e: ApiError): (c: seq<string>)
    requires e.ErrorObject?
    ensures |c| == 3 && c[2] == e.message
  {
    var body := if e.response.Some? && e.response.value.data.Some? then e.response.value.data.value
      else ErrorBody("", "");
    [body.error, body.detail, e.message]
  }

  /** `formatErrorMessage(error)`. */
  function FormatErrorMessage(e: ApiError): (r: string)
    ensures e.Text? ==> r == e.text
    ensures e.ErrorObject? ==> r != ""
  {
    match e
    case Text(s) => s
    case ErrorObject(message, response, _, _, _) =>
      if response.Some? && response.value.data.Some? && response.value.data.value.error != "" then
        response.value.data.value.error
      else if response.Some? && response.value.data.Some? && response.value.data.value.detail != "" then
        response.value.data.value.detail
      else if message != "" then message
      else UNKNOWN_ERROR
  }

  /** The first non-empty text of `texts`, or `fallback` when they are all empty. */
  function FirstNonEmpty(texts: seq<string>, fallback: string): (r: string)
    ensures (exists k :: 0 <= k < |texts| && texts[k] != "" && r == texts[k]
               && forall j :: 0 <= j < k ==> texts[j] == "")
      || (r == fallback && forall j :: 0 <= j < |texts| ==> texts[j] == "")
  {
    if texts == [] then fallback
    else if texts[0] != "" then texts[0]
    else
      var r := FirstNonEmpty(texts[1..], fallback);
      assert forall j :: 1 <= j < |texts| ==> texts[j] == texts[1..][j - 1];
      r
  }

  /**
   * An error object is reported by the first non-empty one of the backend's `error`, its `detail`
   * and the error's own message, in that order, and by the unknown-error text otherwise.
   */
  lemma {:induction false} FormatErrorMessagePriority(e: ApiError)
    requires e.ErrorObject?
    ensures FormatErrorMessage(e) == FirstNonEmpty(Candidates(e), UNKNOWN_ERROR)
  {
    var c := Candidates(e);
    assert c[1..][1..] == [e.message];
    assert c[1..][1..][1..] == [];
  }

  /** The backend's `error` field wins over everything else an error object carries. */
  lemma BackendErrorWins(message: string, status: int, statusText: string, body: ErrorBody,
                         config: Option<RequestConfig>, code: string, isAxiosError: bool)
    requires body.error != ""
    ensures FormatErrorMessage(ErrorObject(message, Some(HttpResponse(status, statusText, Some(body))),
                                           config, code, isAxiosError)) == body.error
  {
  }

  /** `getErrorDetails(error)` read at time `timestamp`. */
  function GetErrorDetails(e: ApiError, timestamp: string): (d: ErrorDetails)
    ensures d.message == FormatErrorMessage(e) && d.timestamp == timestamp
    ensures d.status.Some? <==> e.ErrorObject? && e.response.Some? && e.response.value.status != 0
    ensures d.status.Some? ==> d.status.value == e.response.value.status
    ensures d.statusText.Some? <==> e.ErrorObject? && e.response.Some? && e.response.value.statusText != ""
    ensures d.statusText.Some? ==> d.statusText.value == e.response.value.statusText
    ensures d.url.Some? <==> e.ErrorObject? && e.config.Some? && e.config.value.url != ""
    ensures d.url.Some? ==> d.url.value == e.config.value.url
    ensures d.httpMethod.Some? <==> e.ErrorObject? && e.config.Some? && e.config.value.httpMethod != ""
    ensures d.httpMethod.Some? ==> d.httpMethod.value == e.config.value.httpMethod
    ensures d.code.Some? <==> e.ErrorObject? && e.code != ""
    ensures d.code.Some? ==> d.code.value == e.code
    ensures d.isNetworkError <==> e.ErrorObject? && e.isAxiosError
  {
    match e
    case Text(s) => ErrorDetails(s, None, None, None, None, timestamp, None, false)
    case ErrorObject(_, response, config, code, isAxiosError) =>
      ErrorDetails(
        FormatErrorMessage(e),
        if response.Some? && response.value.status != 0 then Some(response.value.status) else None,
        if response.Some? && response.value.statusText != "" then Some(response.value.statusText) else None,
        if config.Some? && config.value.url != "" then Some(config.value.url) else None,
        if config.Some? && config.value.httpMethod != "" then Some(config.value.httpMethod) else None,
        timestamp,
        if code != "" then Some(code) else None,
        isAxiosError)
  }

  /** Which branch of `createUserFriendlyError` answers, in the order the code tests them. */
  datatype ErrorCase = NotFound | ServerError | TooManyRequests | NetworkError | Other

  function Classify(d: ErrorDetails): (c: ErrorCase)
    ensures c == NotFound <==> d.status == Some(404)
    ensures c == ServerError <==> d.status == Some(500)
    ensures c == TooManyRequests <==> d.status == Some(429)
    ensures c == NetworkError <==> d.status !in {Some(404), Some(500), Some(429)} && d.isNetworkError
  {
    if d.status == Some(404) then NotFound
    else if d.status == Some(500) then ServerError
    else if d.status == Some(429) then TooManyRequests
    else if d.isNetworkError then NetworkError
    else Other
  }

  /** ` (context)` when a context is given, nothing otherwise. */
  function ContextSuffix(context: string): (s: string)
    ensures context == "" <==> s == ""
  {
    if context != "" then " (" + context + ")" else ""
  }

  /** The fixed text before and after the context of each case. */
  function Lead(c: ErrorCase, d: ErrorDetails): string {
    match c
    case NotFound => "Ресурс не найден"
    case ServerError => "Внутренняя ошибка сервера"
    case TooManyRequests => "Слишком много запросов"
    case NetworkError => "Ошибка подключения к серверу"
    case Other => d.message
  }

  function Tail(c: ErrorCase): string {
    match c
    case NotFound => ". Пожалуйста, проверьте подключение к серверу."
    case ServerError => ". Пожалуйста, попробуйте позже."
    case TooManyRequests => ". Пожалуйста, подождите немного."
    case NetworkError => ". Пожалуйста, проверьте ваше интернет-соединение."
    case Other => ""
  }

  /** `createUserFriendlyError(error, context)`. */
  function CreateUserFriendlyError(e: ApiError, context: string, timestamp: string): (r: string)
    ensures var d := GetErrorDetails(e, timestamp);
      r == Lead(Classify(d), d) + ContextSuffix(context) + Tail(Classify(d))
  {
    var d := GetErrorDetails(e, timestamp);
    if d.status == Some(404) then
      "Ресурс не найден" + ContextSuffix(context) + ". Пожалуйста, проверьте подключение к серверу."
    else if d.status == Some(500) then
      "Внутренняя ошибка сервера" + ContextSuffix(context) + ". Пожалуйста, попробуйте позже."
    else if d.status == Some(429) then
      "Слишком много запросов" + ContextSuffix(context) + ". Пожалуйста, подождите немного."
    else if d.isNetworkError then
      "Ошибка подключения к серверу" + ContextSuffix(context) + ". Пожалуйста, проверьте ваше интернет-соединение."
    else d.message + ContextSuffix(context)
  }

  /**
   * A status the code names is reported as such even for a network-level axios error: statuses are
   * tested before the network flag.
   */
  lemma StatusBeforeNetwork(message: string, status: int, statusText: string, data: Option<ErrorBody>,
                            config: Option<RequestConfig>, code: string, context: string, timestamp: string)
    requires status in {404, 500, 429}
    ensures var e := ErrorObject(message, Some(HttpResponse(status, statusText, data)), config, code, true);
      var r := CreateUserFriendlyError(e, context, timestamp);
      Classify(GetErrorDetails(e, timestamp)) != NetworkError
      && (status == 404 ==> r[..|"Ресурс не найден"|] == "Ресурс не найден")
  {
  }

  /**
   * The context only ever appears as the ` (context)` inserted into the context-free message:
   * with a context the result is the message without one, split at a fixed point, around it.
   */
  lemma {:induction false} ContextSplice(e: ApiError, context: string, timestamp: string)
    ensures var plain := CreateUserFriendlyError(e, "", timestamp);
      exists k :: 0 <= k <= |plain| &&
        CreateUserFriendlyError(e, context, timestamp) == plain[..k] + ContextSuffix(context) + plain[k..]
  {
    var d := GetErrorDetails(e, timestamp);
    var c := Classify(d);
    var lead, mid, tail := Lead(c, d), ContextSuffix(context), Tail(c);
    var plain := CreateUserFriendlyError(e, "", timestamp);
    assert ContextSuffix("") == [];
    assert plain == lead + [] + tail;
    assert lead + [] + tail == lead + tail;
    SpliceAt(lead, mid, tail);
    var k := |lead|;
    assert CreateUserFriendlyError(e, context, timestamp) == plain[..k] + mid + plain[k..];
  }

  lemma SpliceAt(lead: string, mid: string, tail: string)
    ensures (lead + tail)[..|lead|] == lead && (lead + tail)[|lead|..] == tail
    ensures lead + mid + tail == (lead + tail)[..|lead|] + mid + (lead + tail)[|lead|..]
  {
    assert (lead + tail)[..|lead|] == lead;
    assert (lead + tail)[|lead|..] == tail;
  }

  /** Without a context the default case returns the formatted message itself. */
  lemma DefaultIsFormattedMessage(e: ApiError, timestamp: string)
    requires Classify(GetErrorDetails(e, timestamp)) == Other
    ensures CreateUserFriendlyError(e, "", timestamp) == FormatErrorMessage(e)
  {
  }
}

=== FILE: api_gateway.dfy ===
/**
 * The state-changing game endpoints of the API client (frontend/src/services/api.js):
 * `gameApi.startGame` and `gameApi.makeChoice`. Both validate their arguments, clear the response
 * cache and send one POST under the default retry policy. The POST is given as `post(i)`, the
 * outcome of its i-th attempt (a response, or an error message).
 */
module ApiGateway {
  import opened Wrappers
  import opened ApiValidation
  import opened ApiRetry
  import opened ApiCache

  const START_FAILED: string := "Не удалось начать игру: "
  const CHOICE_FAILED: string := "Не удалось выполнить выбор: "

  /** The `stats` `makeChoice` works with: an omitted argument takes the default `{}`. */
  function StatsArgument(stats: JsValue): (r: JsValue)
    ensures stats.Undefined? ==> r == Obj([])
    ensures !stats.Undefined? ==> r == stats
    ensures !r.Undefined?
  {
    if stats.Undefined? then Obj([]) else stats
  }

  /**
   * The first validation error of `makeChoice`'s arguments, in the order they are checked; the
   * stats check sees the defaulted argument.
   */
  function ChoiceError(playerId: JsValue, nextScene: JsValue, stats: JsValue): (r: Option<ValidationError>)
    ensures r == None <==>
      ValidatePlayerId(playerId) == None && ValidateSceneId(nextScene) == None
      && ValidateStats(StatsArgument(stats)) == None
    ensures ValidatePlayerId(playerId).Some? ==> r == ValidatePlayerId(playerId)
  {
    if ValidatePlayerId(playerId).Some? then ValidatePlayerId(playerId)
    else if ValidateSceneId(nextScene).Some? then ValidateSceneId(nextScene)
    else ValidateStats(StatsArgument(stats))
  }

  /** Omitting `stats` never fails validation: with a good id and scene the choice is sent. */
  lemma OmittedStatsAccepted(playerId: JsValue, nextScene: JsValue)
    ensures ChoiceError(playerId, nextScene, Undefined) == ChoiceError(playerId, nextScene, Obj([]))
    ensures ValidatePlayerId(playerId) == None && ValidateSceneId(nextScene) == None ==>
      ChoiceError(playerId, nextScene, Undefined) == None
  {
  }

  /**
   * `gameApi.startGame(playerId)`. A bad id is rejected before the cache is touched or a request
   * is made; otherwise the cache is emptied and the POST is retried. `attempts` counts POSTs.
   */
  method StartGame<T, V>(cache: LRUCache<V>, playerId: JsValue, post: nat -> Outcome<T, string>)
    returns (r: Result<T, string>, attempts: nat)
    requires cache.Valid()
    modifies cache
    ensures cache.Valid()
    ensures ValidatePlayerId(playerId).Some? ==>
      r == Failure(START_FAILED + Message(ValidatePlayerId(playerId).value))
      && attempts == 0 && cache.State() == old(cache.State())
    ensures ValidatePlayerId(playerId).None? ==>
      var run := RetryWithBackoff(post, DEFAULT_RETRIES, DEFAULT_DELAY);
      r == Answer(run, START_FAILED) && attempts == run.calls && cache.State() == CacheState([], map[])
  {
    var invalid := ValidatePlayerId(playerId);
    if invalid.Some? {
      return Failure(START_FAILED + Message(invalid.value)), 0;
    }
    cache.Clear();
    var run := RetryWithBackoff(post, DEFAULT_RETRIES, DEFAULT_DELAY);
    r, attempts := Answer(run, START_FAILED), run.calls;
  }

  /**
   * `gameApi.makeChoice(playerId, nextScene, stats)`: the same shape as `StartGame`, with the
   * three argument checks in order.
   */
  method MakeChoice<T, V>(cache: LRUCache<V>, playerId: JsValue, nextScene: JsValue, stats: JsValue,
                          post: nat -> Outcome<T, string>)
    returns (r: Result<T, string>, attempts: nat)
    requires cache.Valid()
    modifies cache
    ensures cache.Valid()
    ensures ChoiceError(playerId, nextScene, stats).Some? ==>
      r == Failure(CHOICE_FAILED + Message(ChoiceError(playerId, nextScene, stats).value))
      && attempts == 0 && cache.State() == old(cache.State())
    ensures ChoiceError(playerId, nextScene, stats).None? ==>
      var run := RetryWithBackoff(post, DEFAULT_RETRIES, DEFAULT_DELAY);
      r == Answer(run, CHOICE_FAILED) && attempts == run.calls && cache.State() == CacheState([], map[])
  {
    var invalid := ChoiceError(playerId, nextScene, stats);
    if invalid.Some? {
      return Failure(CHOICE_FAILED + Message(invalid.value)), 0;
    }
    cache.Clear();
    var run := RetryWithBackoff(post, DEFAULT_RETRIES, DEFAULT_DELAY);
    r, attempts := Answer(run, CHOICE_FAILED), run.calls;
  }
}

=== FILE: api_retry.dfy ===
/**
 * Exponential-backoff retry (`retryWithBackoff`) and server polling (`healthApi.checkHealth`,
 * `healthApi.waitForServer`) from frontend/src/services/api.js. Waiting is not performed: every
 * delay the code would sleep for is recorded instead. The wrapped asynchronous call is given as
 * `fn(i)`, the outcome of its i-th invocation.
 */
module ApiRetry {
  import opened Wrappers

  /** What one invocation of the wrapped call does: resolve with a value or reject with an error. */
  datatype Outcome<T, E> = Resolved(value: T) | Rejected(error: E)

  /** One run of `retryWithBackoff`: its outcome, how many calls it made, the delays it waited. */
  datatype Run<T, E> = Run(outcome: Outcome<T, E>, calls: nat, delays: seq<int>)

  /** The defaults `retries = 3`, `delay = 1000` that every caller in the API client uses. */
  const DEFAULT_RETRIES: nat := 3
  const DEFAULT_DELAY: int := 1000

  function Pow2(n: nat): (p: nat)
    ensures p >= 1
  {
    if n == 0 then 1 else 2 * Pow2(n - 1)
  }

  /** Waits that start at `delay` and double each time. */
  ghost predicate Doubling(delays: seq<int>, delay: int) {
    (|delays| > 0 ==> delays[0] == delay)
    && forall i, j :: 0 <= i && j == i + 1 && j < |delays| ==> delays[j] == 2 * delays[i]
  }

  /**
   * `retryWithBackoff(fn, retries, delay)` whose first call is invocation `first` of `fn`. The
   * result names the call whose outcome it passes on: the first that resolved, or the last one.
   */
  function RetryFrom<T, E>(fn: nat -> Outcome<T, E>, first: nat, retries: nat, delay: int): (r: Run<T, E>)
    ensures 1 <= r.calls <= retries + 1
    ensures r.outcome == fn(first + r.calls - 1)
    ensures forall i :: first <= i < first + r.calls - 1 ==> fn(i).Rejected?
    ensures r.outcome.Rejected? ==> r.calls == retries + 1
    ensures |r.delays| == r.calls - 1
    ensures Doubling(r.delays, delay)
    decreases retries
  {
    match fn(first)
    case Resolved(v) => Run(Resolved(v), 1, [])
    case Rejected(e) =>
      if retries == 0 then Run(Rejected(e), 1, [])
      else
        var rest := RetryFrom(fn, first + 1, retries - 1, delay * 2);
        Run(rest.outcome, rest.calls + 1, [delay] + rest.delays)
  }

  /**
   * `retryWithBackoff(fn, retries, delay)`: at most `retries + 1` calls, stopping at the first that
   * resolves and passing on its outcome, or else passing on the last call's error; one wait between
   * consecutive calls, doubling from `delay`.
   */
  function RetryWithBackoff<T, E>(fn: nat -> Outcome<T, E>, retries: nat, delay: int): (r: Run<T, E>)
    ensures 1 <= r.calls <= retries + 1
    ensures r.outcome == fn(r.calls - 1)
    ensures forall i :: 0 <= i < r.calls - 1 ==> fn(i).Rejected?
    ensures r.outcome.Rejected? ==> r.calls == retries + 1
    ensures |r.delays| == r.calls - 1 && Doubling(r.delays, delay)
  {
    RetryFrom(fn, 0, retries, delay)
  }

  /** The delays double from the initial one: the i-th wait is `delay * 2^i`. */
  lemma {:induction false} DelaysDouble(delays: seq<int>, delay: int, n: nat)
    requires n <= |delays|
    requires Doubling(delays, delay)
    ensures forall i :: 0 <= i < n ==> delays[i] == delay * Pow2(i)
  {
    if n > 1 {
      DelaysDouble(delays, delay, n - 1);
      var k := n - 1;
      calc {
        delays[k];
        { assert k - 1 + 1 == k; }
        2 * delays[k - 1];
        2 * (delay * Pow2(k - 1));
        delay * (2 * Pow2(k - 1));
        delay * Pow2(k);
      }
    }
  }

  /** The run waits `delay * 2^i` before call i + 2, and never more often than it retried. */
  lemma RetryDelays<T, E>(fn: nat -> Outcome<T, E>, retries: nat, delay: int)
    ensures var r := RetryWithBackoff(fn, retries, delay);
      |r.delays| == r.calls - 1 <= retries
      && forall i :: 0 <= i < |r.delays| ==> r.delays[i] == delay * Pow2(i)
  {
    var r := RetryWithBackoff(fn, retries, delay);
    DelaysDouble(r.delays, delay, |r.delays|);
  }

  /**
   * If some call among the first `retries + 1` resolves, the run returns the first such value
   * after exactly that many calls.
   */
  lemma RetryReturnsFirstSuccess<T, E>(fn: nat -> Outcome<T, E>, retries: nat, delay: int, k: nat)
    requires k <= retries && fn(k).Resolved?
    requires forall i :: 0 <= i < k ==> fn(i).Rejected?
    ensures RetryWithBackoff(fn, retries, delay).outcome == fn(k)
    ensures RetryWithBackoff(fn, retries, delay).calls == k + 1
  {
  }

  /** When every allowed call fails, the error of the last one is propagated unchanged. */
  lemma RetryExhausted<T, E>(fn: nat -> Outcome<T, E>, retries: nat, delay: int)
    requires forall i :: 0 <= i <= retries ==> fn(i).Rejected?
    ensures RetryWithBackoff(fn, retries, delay).outcome == fn(retries)
    ensures RetryWithBackoff(fn, retries, delay).calls == retries + 1
  {
  }

  /**
   * The GET /health requests of `healthApi.checkHealth()` under the default retry policy, the
   * first of them being request number `first`.
   */
  function CheckHealth<T, E>(probe: nat -> Outcome<T, E>, first: nat): (r: Run<T, E>)
    ensures 1 <= r.calls <= DEFAULT_RETRIES + 1
  {
    RetryFrom(probe, first, DEFAULT_RETRIES, DEFAULT_DELAY)
  }

  /**
   * What an endpoint that retries answers: the value of the run, or its error message behind
   * `prefix` (the `catch` that rethrows `new Error(prefix + error.message)`).
   */
  function Answer<T>(run: Run<T, string>, prefix: string): (r: Result<T, string>)
    ensures run.outcome.Resolved? <==> r.Success?
    ensures r.Success? ==> r.value == run.outcome.value
    ensures r.Failure? ==> r.error == prefix + run.outcome.error
  {
    match run.outcome
    case Resolved(v) => Success(v)
    case Rejected(e) => Failure(prefix + e)
  }

  const HEALTH_FAILED: string := "Проверка состояния сервера не удалась: "

  /**
   * What `healthApi.checkHealth()` answers: the response data of the successful request, or the
   * last error's message behind `HEALTH_FAILED`.
   */
  function HealthAnswer<T>(probe: nat -> Outcome<T, string>): (r: Result<T, string>)
    ensures r.Success? <==> CheckHealth(probe, 0).outcome.Resolved?
    ensures r.Success? ==> r.value == CheckHealth(probe, 0).outcome.value
    ensures r.Failure? ==> r.error == HEALTH_FAILED + CheckHealth(probe, 0).outcome.error
  {
    Answer(CheckHealth(probe, 0), HEALTH_FAILED)
  }

  /**
   * In terms of the single requests: the check succeeds iff one of the four GET /health requests
   * succeeds, with the data of the first that does; otherwise it fails with the fourth's error.
   */
  lemma HealthAnswerFromProbes<T>(probe: nat -> Outcome<T, string>)
    ensures HealthAnswer(probe).Success? <==> exists i :: 0 <= i <= DEFAULT_RETRIES && probe(i).Resolved?
    ensures HealthAnswer(probe).Success? ==>
      exists k :: 0 <= k <= DEFAULT_RETRIES && probe(k) == Resolved(HealthAnswer(probe).value)
        && forall i :: 0 <= i < k ==> probe(i).Rejected?
    ensures HealthAnswer(probe).Failure? ==> HealthAnswer(probe).error == HEALTH_FAILED + probe(DEFAULT_RETRIES).error
  {
    var k := if probe(0).Resolved? then 0 else if probe(1).Resolved? then 1
             else if probe(2).Resolved? then 2 else 3;
    if probe(k).Resolved? {
      RetryReturnsFirstSuccess(probe, DEFAULT_RETRIES, DEFAULT_DELAY, k);
    } else {
      RetryExhausted(probe, DEFAULT_RETRIES, DEFAULT_DELAY);
    }
  }

  /**
   * The health checks of one `waitForServer` call: `checks(s)` is the `checkHealth()` that starts
   * after `s` GET /health requests have been made.
   */
  function HealthChecks<T, E>(probe: nat -> Outcome<T, E>): nat -> Run<T, E> {
    (s: nat) => CheckHealth(probe, s)
  }

  /** Number of GET /health requests made before health check number `k` starts. */
  function CheckStart<T, E>(checks: nat -> Run<T, E>, k: nat): nat {
    if k == 0 then 0 else CheckStart(checks, k - 1) + checks(CheckStart(checks, k - 1)).calls
  }

  /** Whether health check number `k` succeeds. */
  predicate CheckSucceeds<T, E>(checks: nat -> Run<T, E>, k: nat) {
    checks(CheckStart(checks, k)).outcome.Resolved?
  }

  /** The error `waitForServer` throws once every attempt failed. */
  const SERVER_UNAVAILABLE: string :=
    "Сервер не ответил. Пожалуйста, убедитесь, что backend запущен на http://localhost:8000"

  /**
   * The polling loop of `waitForServer(maxAttempts, delay)` over any sequence of health checks
   * that make at most `DEFAULT_RETRIES + 1` requests each.
   */
  method PollHealth<T, E>(checks: nat -> Run<T, E>, maxAttempts: int, delay: int)
    returns (r: Result<bool, string>, attempts: nat, sleeps: seq<int>, requests: nat)
    requires forall s :: checks(s).calls <= DEFAULT_RETRIES + 1
    ensures r.Success? <==> exists k :: 0 <= k < maxAttempts && CheckSucceeds(checks, k)
    ensures r.Success? ==> r.value && 1 <= attempts && CheckSucceeds(checks, attempts - 1)
    ensures r.Success? ==> forall k :: 0 <= k < attempts - 1 ==> !CheckSucceeds(checks, k)
    ensures r.Failure? ==> r.error == SERVER_UNAVAILABLE && attempts == (if maxAttempts < 0 then 0 else maxAttempts)
    ensures attempts <= (if maxAttempts < 0 then 0 else maxAttempts)
    ensures |sleeps| <= attempts && |sleeps| < (if maxAttempts < 1 then 1 else maxAttempts)
    ensures |sleeps| == (if attempts == 0 then 0 else attempts - 1)
    ensures forall i :: 0 <= i < |sleeps| ==> sleeps[i] == delay
    ensures requests == CheckStart(checks, attempts) && requests <= 4 * attempts
  {
    attempts, sleeps, requests := 0, [], 0;
    var i := 0;
    while i < maxAttempts
      invariant 0 <= i && (maxAttempts >= 0 ==> i <= maxAttempts) && (maxAttempts < 0 ==> i == 0)
      invariant attempts == i && requests == CheckStart(checks, i) && requests <= 4 * i
      invariant |sleeps| == (if i == 0 then 0 else if i < maxAttempts then i else i - 1)
      invariant forall j :: 0 <= j < |sleeps| ==> sleeps[j] == delay
      invariant forall k :: 0 <= k < i ==> !CheckSucceeds(checks, k)
      decreases maxAttempts - i
    {
      var run := checks(requests);
      attempts, requests := attempts + 1, requests + run.calls;
      if run.outcome.Resolved? {
        assert CheckSucceeds(checks, i);
        r := Success(true);
        return;
      }
      if i < maxAttempts - 1 {
        sleeps := sleeps + [delay];
      }
      i := i + 1;
    }
    r := Failure(SERVER_UNAVAILABLE);
  }

  /**
   * `healthApi.waitForServer(maxAttempts, delay)`: up to `maxAttempts` health checks with a pause
   * of `delay` after every failed one but the last. Returns how many checks ran, the pauses taken
   * and the number of GET /health requests made.
   */
  method WaitForServer<T, E>(probe: nat -> Outcome<T, E>, maxAttempts: int, delay: int)
    returns (r: Result<bool, string>, attempts: nat, sleeps: seq<int>, requests: nat)
    ensures r.Success? <==> exists k :: 0 <= k < maxAttempts && CheckSucceeds(HealthChecks(probe), k)
    ensures r.Success? ==> r.value && 1 <= attempts && CheckSucceeds(HealthChecks(probe), attempts - 1)
    ensures r.Success? ==> forall k :: 0 <= k < attempts - 1 ==> !CheckSucceeds(HealthChecks(probe), k)
    ensures r.Failure? ==> r.error == SERVER_UNAVAILABLE && attempts == (if maxAttempts < 0 then 0 else maxAttempts)
    ensures |sleeps| <= attempts && |sleeps| < (if maxAttempts < 1 then 1 else maxAttempts)
    ensures |sleeps| == (if attempts == 0 then 0 else attempts - 1)
    ensures forall i :: 0 <= i < |sleeps| ==> sleeps[i] == delay
    ensures requests == CheckStart(HealthChecks(probe), attempts) && requests <= 4 * attempts
  {
    r, attempts, sleeps, requests := PollHealth(HealthChecks(probe), maxAttempts, delay);
  }
}

=== FILE: api_validation.dfy ===
/**
 * Input validation of the API client (frontend/src/services/api.js): `validatePlayerId`,
 * `validateSceneId`, `validateStats`, the character-id check of `getCharacter` and the list checks
 * of `getCharactersBatch` / `getScenesBatch`. Arguments are arbitrary JavaScript values.
 */
module ApiValidation {
  import opened Wrappers
  import Text

  /**
   * A JavaScript value as far as the validators look at it. Numbers are exact reals; `NaN` and the
   * two infinities are kept apart because `typeof` calls them numbers too.
   */
  datatype JsValue =
    | Undefined
    | Null
    | Bool(b: bool)
    | Num(x: real)
    | NaN
    | Infinity(negative: bool)
    | Str(s: string)
    | Arr(items: seq<JsValue>)
    | Obj(fields: seq<(string, JsValue)>)

  /** JavaScript truthiness: `undefined`, `null`, `false`, `0`, `NaN` and `""` are falsy. */
  predicate Truthy(v: JsValue) {
    match v
    case Undefined => false
    case Null => false
    case Bool(b) => b
    case Num(x) => x != 0.0
    case NaN => false
    case Infinity(_) => true
    case Str(s) => s != ""
    case Arr(_) => true
    case Obj(_) => true
  }

  /** `typeof v === 'number'`. */
  predicate IsNumber(v: JsValue) {
    v.Num? || v.NaN? || v.Infinity?
  }

  /** Why a validator threw; `Message` gives the text of the `Error`. */
  datatype ValidationError =
    | InvalidPlayerId
    | InvalidSceneId
    | InvalidCharacterId
    | InvalidStatsObject
    | InvalidStatValue(key: string, value: JsValue)
    | StatOutOfRange(key: string, value: JsValue)
    | InvalidIdList(kind: BatchKind)
    | InvalidIdInList(kind: BatchKind)

  /** The two batch endpoints. */
  datatype BatchKind = Characters | Scenes

  /**
   * The error text. For the two stat errors only the part before the interpolated value is
   * modelled; the value is kept in the error itself.
   */
  function Message(e: ValidationError): (m: string)
    ensures |m| > 0
  {
    match e
    case InvalidPlayerId => "Неверный ID игрока"
    case InvalidSceneId => "Неверный ID сцены"
    case InvalidCharacterId => "Неверный ID персонажа"
    case InvalidStatsObject => "Неверный объект статистики"
    case InvalidStatValue(key, _) => "Неверное значение статистики для " + key + ": "
    case StatOutOfRange(key, _) => "Значение статистики " + key + " вне допустимого диапазона: "
    case InvalidIdList(Characters) => "Неверный список ID персонажей"
    case InvalidIdList(Scenes) => "Неверный список ID сцен"
    case InvalidIdInList(Characters) => "Неверный ID персонажа в списке"
    case InvalidIdInList(Scenes) => "Неверный ID сцены в списке"
  }

  /** Minimum length of a player id. */
  const MIN_PLAYER_ID_LENGTH: nat := 5

  /** Bounds a stat value sent to the server must respect. */
  const STAT_MIN: real := -1000.0
  const STAT_MAX: real := 1000.0

  /** `validatePlayerId(playerId)`. */
  function ValidatePlayerId(playerId: JsValue): (r: Option<ValidationError>)
    ensures r == None <==> playerId.Str? && |playerId.s| >= MIN_PLAYER_ID_LENGTH
    ensures r != None ==> r == Some(InvalidPlayerId)
  {
    if !Truthy(playerId) || !playerId.Str? || |playerId.s| < MIN_PLAYER_ID_LENGTH then Some(InvalidPlayerId)
    else None
  }

  /** `validateSceneId(sceneId)`: the length test is implied by truthiness. */
  function ValidateSceneId(sceneId: JsValue): (r: Option<ValidationError>)
    ensures r == None <==> sceneId.Str? && sceneId.s != ""
    ensures r != None ==> r == Some(InvalidSceneId)
  {
    if !Truthy(sceneId) || !sceneId.Str? || |sceneId.s| < 1 then Some(InvalidSceneId)
    else None
  }

  /** The id check at the start of `characterApi.getCharacter(characterId)`. */
  function ValidateCharacterId(characterId: JsValue): (r: Option<ValidationError>)
    ensures r == None <==> characterId.Str? && characterId.s != ""
    ensures r != None ==> r == Some(InvalidCharacterId)
  {
    if !Truthy(characterId) || !characterId.Str? then Some(InvalidCharacterId)
    else None
  }

  /** Whether a single stat value passes: a number, not NaN, within [-1000, 1000]. */
  predicate GoodStatValue(v: JsValue) {
    v.Num? && STAT_MIN <= v.x <= STAT_MAX
  }

  /** What `validateStats` says about one entry, in the order the loop tests. */
  function CheckStat(key: string, value: JsValue): (r: Option<ValidationError>)
    ensures r == None <==> GoodStatValue(value)
  {
    if !IsNumber(value) || value.NaN? then Some(InvalidStatValue(key, value))
    else if value.Infinity? then Some(StatOutOfRange(key, value))
    else if value.x < STAT_MIN || value.x > STAT_MAX then Some(StatOutOfRange(key, value))
    else None
  }

  /** `Object.entries` of an object or array (array keys are the decimal indices). */
  function Entries(v: JsValue): (r: seq<(string, JsValue)>)
    requires v.Obj? || v.Arr?
    ensures v.Obj? ==> r == v.fields
    ensures v.Arr? ==> |r| == |v.items| && forall i :: 0 <= i < |r| ==> r[i].1 == v.items[i]
  {
    if v.Obj? then v.fields
    else seq(|v.items|, i requires 0 <= i < |v.items| => (Text.NatToString(i), v.items[i]))
  }

  /** The first entry that fails, as the `for ... of` loop of `validateStats` meets it. */
  function FirstBadStat(entries: seq<(string, JsValue)>): (r: Option<ValidationError>)
    ensures r == None <==> forall i :: 0 <= i < |entries| ==> GoodStatValue(entries[i].1)
  {
    if entries == [] then None
    else if CheckStat(entries[0].0, entries[0].1).Some? then CheckStat(entries[0].0, entries[0].1)
    else FirstBadStat(entries[1..])
  }

  /** `validateStats(stats)`. */
  function ValidateStats(stats: JsValue): (r: Option<ValidationError>)
    ensures !Truthy(stats) || !(stats.Obj? || stats.Arr?) ==> r == Some(InvalidStatsObject)
    ensures stats.Obj? ==> (r == None <==> forall i :: 0 <= i < |stats.fields| ==> GoodStatValue(stats.fields[i].1))
    ensures stats.Arr? ==> (r == None <==> forall i :: 0 <= i < |stats.items| ==> GoodStatValue(stats.items[i]))
  {
    if !Truthy(stats) || !(stats.Obj? || stats.Arr?) then Some(InvalidStatsObject)
    else
      var entries := Entries(stats);
      assert stats.Arr? ==> forall i :: 0 <= i < |entries| ==> entries[i].1 == stats.items[i];
      FirstBadStat(entries)
  }

  /**
   * The error `validateStats` throws names the first bad entry: every entry before it passes and
   * the reported key and value are that entry's.
   */
  lemma {:induction false} FirstBadStatIsFirst(entries: seq<(string, JsValue)>)
    requires FirstBadStat(entries).Some?
    ensures exists k :: (0 <= k < |entries|
      && !GoodStatValue(entries[k].1)
      && (forall i :: 0 <= i < k ==> GoodStatValue(entries[i].1))
      && FirstBadStat(entries) == CheckStat(entries[k].0, entries[k].1))
  {
    var k := FirstBadStatIndex(entries);
  }

  /** The position of the entry `FirstBadStat` reports. */
  lemma {:induction false} FirstBadStatIndex(entries: seq<(string, JsValue)>) returns (k: nat)
    requires FirstBadStat(entries).Some?
    ensures k < |entries| && !GoodStatValue(entries[k].1)
    ensures forall i :: 0 <= i < k ==> GoodStatValue(entries[i].1)
    ensures FirstBadStat(entries) == CheckStat(entries[k].0, entries[k].1)
  {
    if CheckStat(entries[0].0, entries[0].1).Some? {
      k := 0;
    } else {
      var rest := entries[1..];
      var j := FirstBadStatIndex(rest);
      k := j + 1;
      assert entries[k] == rest[j];
      forall i | 0 <= i < k ensures GoodStatValue(entries[i].1) {
        if i > 0 { assert entries[i] == rest[i - 1]; }
      }
    }
  }

  /** A non-number (or NaN) is reported as an invalid value, a number out of range as such. */
  lemma StatErrorKinds(key: string, value: JsValue)
    ensures (!IsNumber(value) || value.NaN?) ==> CheckStat(key, value) == Some(InvalidStatValue(key, value))
    ensures value.Infinity? ==> CheckStat(key, value) == Some(StatOutOfRange(key, value))
    ensures value.Num? && (value.x < STAT_MIN || value.x > STAT_MAX) ==> CheckStat(key, value) == Some(StatOutOfRange(key, value))
  {
  }

  /** Whether a list element passes the per-id check of a batch call: a non-empty string. */
  predicate GoodId(v: JsValue) {
    v.Str? && v.s != ""
  }

  /** The first element that fails the per-id check, in `forEach` order. */
  function FirstBadId(ids: seq<JsValue>): (r: Option<nat>)
    ensures r == None <==> forall i :: 0 <= i < |ids| ==> GoodId(ids[i])
    ensures r.Some? ==> r.value < |ids| && !GoodId(ids[r.value]) && forall i :: 0 <= i < r.value ==> GoodId(ids[i])
  {
    if ids == [] then None
    else if !Truthy(ids[0]) || !ids[0].Str? then Some(0)
    else match FirstBadId(ids[1..])
      case None => None
      case Some(k) => Some(k + 1)
  }

  /** The strings of a list whose every element passed. */
  function IdStrings(ids: seq<JsValue>): (r: seq<string>)
    requires forall i :: 0 <= i < |ids| ==> GoodId(ids[i])
    ensures |r| == |ids| && forall i :: 0 <= i < |r| ==> ids[i] == Str(r[i]) && r[i] != ""
  {
    var r := seq(|ids|, i requires 0 <= i < |ids| => assert GoodId(ids[i]); ids[i].s);
    assert forall i :: 0 <= i < |r| ==> GoodId(ids[i]) && r[i] == ids[i].s;
    r
  }

  /** The endpoint and query parameter name of a batch call. */
  function BatchPrefix(kind: BatchKind): string {
    match kind
    case Characters => "/characters/batch?character_ids="
    case Scenes => "/scenes/batch?scene_ids="
  }

  /**
   * The checks of `getCharactersBatch` / `getScenesBatch`: reject anything that is not a non-empty
   * array, then any bad element; otherwise the comma-joined id list that goes into the query.
   */
  function ValidateBatch(kind: BatchKind, ids: JsValue): (r: Result<seq<string>, ValidationError>)
    ensures !ids.Arr? || ids.items == [] ==> r == Failure(InvalidIdList(kind))
    ensures ids.Arr? && ids.items != [] ==>
      (r.Success? <==> forall i :: 0 <= i < |ids.items| ==> GoodId(ids.items[i]))
    ensures r.Failure? && ids.Arr? && ids.items != [] ==> r.error == InvalidIdInList(kind)
    ensures r.Success? ==> (ids.Arr? && |r.value| == |ids.items| > 0
      && forall i :: 0 <= i < |r.value| ==> ids.items[i] == Str(r.value[i]))
  {
    if !ids.Arr? || |ids.items| == 0 then Failure(InvalidIdList(kind))
    else if FirstBadId(ids.items).Some? then Failure(InvalidIdInList(kind))
    else Success(IdStrings(ids.items))
  }

  /** The request path of a batch call whose list passed. */
  function BatchPath(kind: BatchKind, ids: seq<string>): string
    requires |ids| >= 1
  {
    BatchPrefix(kind) + Text.Join(ids, ',')
  }

  /**
   * When no id contains a comma, the server gets back exactly the ids that passed: splitting the
   * query value at commas yields the list.
   */
  lemma BatchQueryRoundTrip(kind: BatchKind, ids: JsValue)
    requires ValidateBatch(kind, ids).Success?
    requires forall i :: 0 <= i < |ids.items| ==> !Text.Contains(ids.items[i].s, ',')
    ensures var p := BatchPath(kind, ValidateBatch(kind, ids).value);
      Text.Split(p[|BatchPrefix(kind)|..], ',') == ValidateBatch(kind, ids).value
  {
    var xs := ValidateBatch(kind, ids).value;
    var p := BatchPath(kind, xs);
    assert p[|BatchPrefix(kind)|..] == Text.Join(xs, ',');
    Text.JoinSplit(xs, ',');
  }
}

=== FILE: backend_game.dfy ===
/**
 * The game rules of the FastAPI backend (backend/app/main.py): the in-memory `game_progress` table,
 * `start_game`, `make_choice`, `get_player_stats`, the scene and character lookups and
 * `get_scene_data`. HTTP errors are returned as values instead of raised.
 */
module BackendGame {
  import opened Wrappers

  type Stats = map<string, int>

  /** One row of `game_progress` (the creation time is not modelled). */
  datatype Progress = Progress(
    currentScene: string,
    stats: Stats,
    relationships: map<string, int>,
    inventory: seq<string>,
    choicesMade: nat)

  /** An `HTTPException`: status code and detail. */
  datatype HttpError = HttpError(status: int, detail: string)

  datatype Character = Character(name: string, role: string, relationship: int, description: string)

  /** One choice of a scene: its label, the scene it leads to and the stat changes it sends. */
  datatype Choice = Choice(text: string, next: string, stats: seq<(string, int)>)

  /** One entry of `SCENES` (the narrative text and the emoji image are not modelled). */
  datatype Scene = Scene(title: string, character: string, choices: seq<Choice>)

  /** A `SceneResponse`. */
  datatype SceneView = SceneView(id: string, title: string, character: string, choices: seq<Choice>)

  /** A `CharacterInfo`. */
  datatype CharacterInfo = CharacterInfo(id: string, name: string, role: string, relationship: int,
                                         description: string)

  const INITIAL_STATS: Stats := map[
    "health" := 100, "morale" := 75, "knowledge" := 30, "team" := 50, "danger" := 0,
    "security" := 20, "fuel" := 100, "money" := 1000, "psychic" := 0, "trust" := 50]

  const INITIAL_INVENTORY: seq<string> := ["Брекер кодов", "Боевой нож"]

  const CHARACTERS: map<string, Character> := map[
    "sara_nova" := Character("Сара Нова", "Главный научный офицер", 50,
                             "Холодная, расчётливая, но с добрым сердцем"),
    "grisha_romanov" := Character("Гриша Романов", "Боевой офицер", 60, "Верный боец, опытный воин"),
    "li_zheng" := Character("Ли Чжэнь", "Навигатор", 45, "Загадочная, хранительница древних тайн")]

  /** The relationships a new game starts with: each character's initial value. */
  const INITIAL_RELATIONSHIPS: map<string, int> := map c | c in CHARACTERS :: CHARACTERS[c].relationship

  const RESTART: seq<Choice> := [Choice("Начать заново", "start", [])]

  const SCENES: map<string, Scene> := map[
    "start" := Scene("Пробуждение на Элее", "Сара Нова", [
      Choice("Спешить в центр управления", "command_center", [("health", -5), ("morale", 10)]),
      Choice("Включить связь и узнать больше", "mystery_contact", [("knowledge", 15), ("morale", -5)]),
      Choice("Проверить состояние артефакта в хранилище", "artifact_vault", [("knowledge", 20)])]),
    "command_center" := Scene("Центр управления Элеи", "Сара Нова", [
      Choice("Отправиться на станцию Сигма", "sigma_station", [("fuel", -30), ("morale", 20)]),
      Choice("Усилить охрану артефакта", "artifact_guard", [("security", 25), ("morale", 5)]),
      Choice("Созвать совет экипажа", "crew_meeting", [("team", 15)])]),
    "mystery_contact" := Scene("Голос в эфире", "Неизвестный", [
      Choice("Рассказать о звонке Саре и Грише", "team_divided", [("trust", -20), ("morale", -10)]),
      Choice("Поговорить наедине с Ли Чжэнь", "li_zheng_secret", [("knowledge", 25), ("morale", 15)]),
      Choice("Молча отправиться по координатам", "secret_mission", [("danger", 30)])]),
    "artifact_vault" := Scene("Хранилище артефакта", "Артефакт", [
      Choice("Активировать боевую блокировку", "lockdown_intruder", [("security", 30), ("danger", 20)]),
      Choice("Коснуться артефакта и ощутить его силу", "artifact_touch", [("knowledge", 40), ("psychic", 20)]),
      Choice("Вызвать охрану и подняться в центр управления", "command_center", [("team", 10)])]),
    "sigma_station" := Scene("Станция Сигма-7", "Командир Кейн", [
      Choice("Защитить станцию всеми силами", "defend_station", [("team", 20), ("danger", 40)]),
      Choice("Заключить сделку с пиратами", "pirate_deal", [("money", 50), ("morale", -30), ("trust", -25)]),
      Choice("Эвакуировать и уйти", "evacuate", [("morale", -20), ("fuel", -40)])]),
    "li_zheng_secret" := Scene("Тайна Ли Чжэнь", "Ли Чжэнь", [
      Choice("Полностью доверить ей", "li_alliance", [("trust", 40), ("knowledge", 30), ("morale", 20)]),
      Choice("Требовать полную правду", "li_confrontation", [("knowledge", 25), ("trust", -15)]),
      Choice("Уйти и доложить команде", "team_divided", [("trust", -30)])]),
    "li_alliance" := Scene("Союз навигатора", "Ли Чжэнь", [
      Choice("Начать подготовку к возвращению Древних", "ancient_awakening", [("knowledge", 50), ("danger", 50)]),
      Choice("Скрыть артефакт в безопасном месте", "hide_artifact", [("morale", -10), ("security", 40)]),
      Choice("Уничтожить артефакт", "artifact_destruction", [("morale", -40), ("knowledge", -30)])]),
    "ancient_awakening" := Scene("🌠 КОНЕЦ: Пробуждение Древних", "Судьба", RESTART),
    "hide_artifact" := Scene("🔒 КОНЕЦ: Хранитель секретов", "Секрет", RESTART),
    "artifact_destruction" := Scene("💥 КОНЕЦ: Жертва", "Жертва", RESTART),
    "defend_station" := Scene("⚔️ КОНЕЦ: Боевая победа", "Герой", RESTART)]

  /** `get_scene_data(scene_id)`: the scene under that id, or the start scene's content. */
  function GetSceneData(sceneId: string): (v: SceneView)
    ensures v.id == sceneId
    ensures var s := if sceneId in SCENES then SCENES[sceneId] else SCENES["start"];
      v.title == s.title && v.character == s.character && v.choices == s.choices
  {
    var scene := if sceneId in SCENES then SCENES[sceneId] else SCENES["start"];
    SceneView(sceneId, scene.title, scene.character, scene.choices)
  }

  /** The GET /api/game/scene/{id} endpoint: unknown ids are a 404. */
  function GetScene(sceneId: string): (r: Result<SceneView, HttpError>)
    ensures r.Success? <==> sceneId in SCENES
    ensures r.Success? ==> r.value == GetSceneData(sceneId) && r.value.title == SCENES[sceneId].title
    ensures r.Failure? ==> r.error.status == 404
  {
    if sceneId !in SCENES then Failure(HttpError(404, "Сцена '" + sceneId + "' не найдена"))
    else Success(GetSceneData(sceneId))
  }

  /**
   * Some choices lead to ids the scene table lacks: the scene endpoint answers 404 for them, while
   * `make_choice` (through `get_scene_data`) shows the start scene's content under that id.
   */
  lemma DanglingChoiceFallsBack()
    ensures SCENES["command_center"].choices[1].next == "artifact_guard"
    ensures forall t :: t in DANGLING ==> t !in SCENES
    ensures forall t :: t in DANGLING ==> GetScene(t).Failure? && GetSceneData(t).title == SCENES["start"].title
  {
    forall t | t in DANGLING ensures t !in SCENES {
      assert t == "artifact_guard" || t == "crew_meeting" || t == "team_divided" || t == "secret_mission"
        || t == "lockdown_intruder" || t == "artifact_touch" || t == "pirate_deal" || t == "evacuate"
        || t == "li_confrontation";
    }
  }

  /** The choice targets the scene table lacks. */
  const DANGLING: set<string> := {
    "artifact_guard", "crew_meeting", "team_divided", "secret_mission", "lockdown_intruder",
    "artifact_touch", "pirate_deal", "evacuate", "li_confrontation"}

  /** The GET /api/characters/{id} endpoint. */
  function GetCharacter(characterId: string): (r: Result<CharacterInfo, HttpError>)
    ensures r.Success? <==> characterId in CHARACTERS
    ensures r.Success? ==>
      r.value.id == characterId && r.value.name == CHARACTERS[characterId].name
      && r.value.role == CHARACTERS[characterId].role && r.value.relationship == CHARACTERS[characterId].relationship
      && r.value.description == CHARACTERS[characterId].description
    ensures r.Failure? ==> r.error == HttpError(404, "Персонаж '" + characterId + "' не найден")
  {
    if characterId !in CHARACTERS then Failure(HttpError(404, "Персонаж '" + characterId + "' не найден"))
    else
      var c := CHARACTERS[characterId];
      Success(CharacterInfo(characterId, c.name, c.role, c.relationship, c.description))
  }

  /** `max(0, min(100, v))`. */
  function Clamp(v: int): (r: int)
    ensures 0 <= r <= 100
    ensures 0 <= v <= 100 ==> r == v
    ensures v < 0 ==> r == 0
    ensures v > 100 ==> r == 100
  {
    if v < 0 then 0 else if v > 100 then 100 else v
  }

  /** The stat loop of `make_choice` applied to `changes`, in order; unknown keys are skipped. */
  function ApplyChanges(stats: Stats, changes: seq<(string, int)>): (r: Stats)
    ensures r.Keys == stats.Keys
    decreases |changes|
  {
    if changes == [] then stats
    else
      var last := changes[|changes| - 1];
      var before := ApplyChanges(stats, changes[..|changes| - 1]);
      if last.0 in before then before[last.0 := Clamp(before[last.0] + last.1)] else before
  }

  /** The keys of a change list. */
  function ChangedKeys(changes: seq<(string, int)>): set<string> {
    set i | 0 <= i < |changes| :: changes[i].0
  }

  /** A request's changes have distinct keys (they come from a JSON object). */
  predicate DistinctKeys(changes: seq<(string, int)>) {
    forall i, j :: 0 <= i < j < |changes| ==> changes[i].0 != changes[j].0
  }

  /**
   * After the loop every changed stat the player has is `clamp(old + delta)`, and every other stat
   * keeps its value.
   */
  lemma {:induction false} ApplyChangesEffect(stats: Stats, changes: seq<(string, int)>)
    requires DistinctKeys(changes)
    ensures forall i :: 0 <= i < |changes| && changes[i].0 in stats ==>
      ApplyChanges(stats, changes)[changes[i].0] == Clamp(stats[changes[i].0] + changes[i].1)
    ensures forall k :: k in stats && k !in ChangedKeys(changes) ==> ApplyChanges(stats, changes)[k] == stats[k]
    decreases |changes|
  {
    if changes != [] {
      var n := |changes| - 1;
      var init := changes[..n];
      ApplyChangesEffect(stats, init);
      assert forall k :: k in ChangedKeys(init) ==> k in ChangedKeys(changes) by {
        forall k | k in ChangedKeys(init) ensures k in ChangedKeys(changes) {
          var i :| 0 <= i < |init| && init[i].0 == k;
          assert changes[i].0 == k;
        }
      }
      forall i | 0 <= i < |changes| && changes[i].0 in stats
        ensures ApplyChanges(stats, changes)[changes[i].0] == Clamp(stats[changes[i].0] + changes[i].1)
      {
        if i < n {
          assert init[i] == changes[i];
          assert changes[i].0 != changes[n].0;
        } else {
          assert changes[n].0 !in ChangedKeys(init);
        }
      }
      assert changes[n].0 in ChangedKeys(changes);
    }
  }

  /** Every stat the loop writes lies in [0, 100]; `money` is no exception. */
  lemma {:induction false} ApplyChangesBounds(stats: Stats, changes: seq<(string, int)>, k: string)
    requires k in stats && k in ChangedKeys(changes)
    ensures 0 <= ApplyChanges(stats, changes)[k] <= 100
    decreases |changes|
  {
    var n := |changes| - 1;
    var init := changes[..n];
    if changes[n].0 != k {
      var i :| 0 <= i < |changes| && changes[i].0 == k;
      assert init[i].0 == k;
      ApplyChangesBounds(stats, init, k);
    }
  }

  /**
   * The starting 1000 money never survives a change to money: any delta leaves at most 100, and
   * every delta of at least -900 (every gain, every loss up to 900) leaves exactly 100.
   */
  lemma MoneyClampedByFirstChange(delta: int)
    ensures 0 <= ApplyChanges(INITIAL_STATS, [("money", delta)])["money"] <= 100
    ensures delta >= -900 ==> ApplyChanges(INITIAL_STATS, [("money", delta)])["money"] == 100
  {
    assert [("money", delta)][..0] == [];
  }

  /** The game-over test of `make_choice`. */
  predicate Defeated(stats: Stats)
    requires "health" in stats && "morale" in stats
    ensures 0 <= stats["health"] && 0 <= stats["morale"] ==>
      (Defeated(stats) <==> stats["health"] == 0 || stats["morale"] == 0)
  {
    stats["morale"] <= 0 || stats["health"] <= 0
  }

  /** The answer of `make_choice`. */
  datatype ChoiceResponse =
    | GameOver(reason: string, choicesMade: nat)
    | Advanced(scene: SceneView, stats: Stats, relationships: map<string, int>, choicesMade: nat)

  /** The answer of `start_game`. */
  datatype StartResponse = StartResponse(scene: SceneView, stats: Stats, relationships: map<string, int>)

  /** The answer of `get_player_stats`. */
  datatype PlayerStats = PlayerStats(currentScene: string, stats: Stats, relationships: map<string, int>,
                                     inventory: seq<string>, choicesMade: nat)

  const GAME_OVER_REASON: string := "Вы не выжили в космосе"
  const TOO_MANY_GAMES: HttpError := HttpError(429, "Максимум активных игр достигнут")
  const GAME_NOT_STARTED: HttpError := HttpError(404, "Игра не начата")
  const PLAYER_NOT_FOUND: HttpError := HttpError(404, "Игрок не найден")

  /** The row `start_game` writes for a player. */
  function InitialProgress(): (p: Progress)
    ensures p.currentScene == "start" && p.choicesMade == 0 && p.stats.Keys == INITIAL_STATS.Keys
    ensures "health" in p.stats && "morale" in p.stats
  {
    Progress("start", INITIAL_STATS, INITIAL_RELATIONSHIPS, INITIAL_INVENTORY, 0)
  }

  /** The response of a `make_choice` whose stats are already updated. */
  function ChoiceAnswer(p: Progress, nextScene: string): (r: ChoiceResponse)
    requires "health" in p.stats && "morale" in p.stats
    ensures r.GameOver? <==> Defeated(p.stats)
    ensures r.choicesMade == p.choicesMade
    ensures r.Advanced? ==> r.scene == GetSceneData(nextScene) && r.stats == p.stats
    ensures r.Advanced? ==> r.relationships == p.relationships
  {
    if Defeated(p.stats) then GameOver(GAME_OVER_REASON, p.choicesMade)
    else Advanced(GetSceneData(nextScene), p.stats, p.relationships, p.choicesMade)
  }

  /** The row `make_choice` leaves: stats updated, scene advanced, one more choice counted. */
  function AfterChoice(p: Progress, nextScene: string, changes: seq<(string, int)>): (q: Progress)
    ensures q.currentScene == nextScene && q.choicesMade == p.choicesMade + 1
    ensures q.stats.Keys == p.stats.Keys
    ensures q.relationships == p.relationships && q.inventory == p.inventory
  {
    p.(currentScene := nextScene, stats := ApplyChanges(p.stats, changes), choicesMade := p.choicesMade + 1)
  }

  /** A row as the server keeps it: the two stats the game-over test reads are present. */
  ghost predicate GoodProgress(p: Progress) {
    "health" in p.stats && "morale" in p.stats
  }

  /** The table bound: `start_game` refuses to add rows once `max_active_games` are present. */
  ghost predicate Bounded(gameProgress: map<string, Progress>, maxActiveGames: int) {
    |gameProgress| == 0 || |gameProgress| <= maxActiveGames
  }

  /** The `for key, value in stats_changes.items()` loop of `make_choice` on one player's stats. */
  method UpdateStats(stats: Stats, changes: seq<(string, int)>) returns (r: Stats)
    ensures r == ApplyChanges(stats, changes)
  {
    r := stats;
    for i := 0 to |changes|
      invariant r == ApplyChanges(stats, changes[..i])
    {
      var (key, delta) := changes[i];
      if key in r {
        r := r[key := Clamp(r[key] + delta)];
      }
      assert changes[..i + 1][..i] == changes[..i];
    }
    assert changes[..|changes|] == changes;
  }

  /** Overwriting a present row leaves the table size, and so the bound, as it was. */
  lemma ReplaceKeepsBound(gameProgress: map<string, Progress>, maxActiveGames: int, id: string, p: Progress)
    requires id in gameProgress && Bounded(gameProgress, maxActiveGames)
    ensures Bounded(gameProgress[id := p], maxActiveGames)
  {
    assert gameProgress[id := p].Keys == gameProgress.Keys;
  }

  class GameServer {
    const maxActiveGames: int
    var gameProgress: map<string, Progress>

    ghost predicate Valid()
      reads this
    {
      Bounded(gameProgress, maxActiveGames)
      && forall id :: id in gameProgress ==> GoodProgress(gameProgress[id])
    }

    constructor (maxActiveGames: int)
      ensures Valid() && this.maxActiveGames == maxActiveGames && gameProgress == map[]
    {
      this.maxActiveGames := maxActiveGames;
      gameProgress := map[];
    }

    /**
     * `start_game(player_id)`: refused with 429 once the table holds `max_active_games` rows (even
     * for a player already in it); otherwise the player's row is (re)initialised.
     */
    method StartGame(playerId: string) returns (r: Result<StartResponse, HttpError>)
      requires Valid()
      modifies this
      ensures Valid()
      ensures |old(gameProgress)| >= maxActiveGames ==>
        r == Failure(TOO_MANY_GAMES) && gameProgress == old(gameProgress)
      ensures |old(gameProgress)| < maxActiveGames ==>
        gameProgress == old(gameProgress)[playerId := InitialProgress()]
        && r == Success(StartResponse(GetSceneData("start"), INITIAL_STATS, INITIAL_RELATIONSHIPS))
    {
      if |gameProgress| >= maxActiveGames {
        return Failure(TOO_MANY_GAMES);
      }
      var row := InitialProgress();
      assert GoodProgress(row);
      StartKeepsBound(gameProgress, maxActiveGames, playerId);
      gameProgress := gameProgress[playerId := row];
      r := Success(StartResponse(GetSceneData("start"), INITIAL_STATS, INITIAL_RELATIONSHIPS));
    }

    /**
     * `make_choice(player_id, next_scene, stats)`: 404 for an unknown player; otherwise each change
     * is applied with clamping, the scene advances and the counter grows by one, and the answer
     * says whether the player is defeated.
     */
    method MakeChoice(playerId: string, nextScene: string, changes: seq<(string, int)>)
      returns (r: Result<ChoiceResponse, HttpError>)
      requires Valid()
      modifies this
      ensures Valid()
      ensures playerId !in old(gameProgress) ==> r == Failure(GAME_NOT_STARTED) && gameProgress == old(gameProgress)
      ensures playerId in old(gameProgress) ==>
        var q := AfterChoice(old(gameProgress)[playerId], nextScene, changes);
        gameProgress == old(gameProgress)[playerId := q] && r == Success(ChoiceAnswer(q, nextScene))
    {
      if playerId !in gameProgress {
        return Failure(GAME_NOT_STARTED);
      }
      var row := gameProgress[playerId];
      var stats := UpdateStats(row.stats, changes);
      var q := row.(currentScene := nextScene, stats := stats, choicesMade := row.choicesMade + 1);
      ReplaceKeepsBound(gameProgress, maxActiveGames, playerId, q);
      gameProgress := gameProgress[playerId := q];
      r := Success(ChoiceAnswer(q, nextScene));
    }

    /** `get_player_stats(player_id)`. */
    function GetPlayerStats(playerId: string): (r: Result<PlayerStats, HttpError>)
      reads this
      ensures r.Failure? <==> playerId !in gameProgress
      ensures r.Failure? ==> r.error == PLAYER_NOT_FOUND
      ensures r.Success? ==> var p := gameProgress[playerId];
        r.value == PlayerStats(p.currentScene, p.stats, p.relationships, p.inventory, p.choicesMade)
    {
      if playerId !in gameProgress then Failure(PLAYER_NOT_FOUND)
      else
        var p := gameProgress[playerId];
        Success(PlayerStats(p.currentScene, p.stats, p.relationships, p.inventory, p.choicesMade))
    }
  }

  /** A started game reports the starting row: scene `start`, the initial stats, no choices made. */
  lemma StatsAfterStart(gameProgress: map<string, Progress>, playerId: string)
    ensures var g := gameProgress[playerId := InitialProgress()];
      g[playerId].stats["health"] == 100 && g[playerId].stats["money"] == 1000
      && g[playerId].relationships == map["sara_nova" := 50, "grisha_romanov" := 60, "li_zheng" := 45]
      && forall id :: id in gameProgress && id != playerId ==> g[id] == gameProgress[id]
  {
    assert INITIAL_RELATIONSHIPS.Keys == CHARACTERS.Keys;
  }

  /** Starting never takes the table past the bound (when the bound admits any game at all). */
  lemma StartKeepsBound(gameProgress: map<string, Progress>, maxActiveGames: int, playerId: string)
    requires Bounded(gameProgress, maxActiveGames) && |gameProgress| < maxActiveGames
    ensures |gameProgress[playerId := InitialProgress()]| <= maxActiveGames
  {
  }
}

=== FILE: config.dfy ===
/**
 * The derived settings of the backend configuration (backend/app/config.py): CORS origin
 * splitting, environment classification, database URL building and the choice of the
 * environment-specific settings class. Loading values from `.env` and environment variables is
 * not modelled: a `Settings` value stands for an already-loaded configuration.
 */
module Config {
  import opened Text
  import opened Wrappers

  datatype Settings = Settings(
    environment: string,
    debug: bool,
    serverHost: string,
    serverPort: int,
    apiPrefix: string,
    corsOrigins: string,
    databaseType: string,
    databaseUrl: string,
    databaseEcho: bool,
    cacheEnabled: bool,
    authEnabled: bool,
    logLevel: string,
    maxActiveGames: int)

  /** The class defaults of `Settings`. */
  const DEFAULT_SETTINGS: Settings := Settings(
    "development", true, "0.0.0.0", 8000, "/api",
    "http://localhost:3000,http://localhost:5173,http://127.0.0.1:3000,http://127.0.0.1:5173",
    "sqlite", "sqlite:///./starcourier.db", false, false, false, "INFO", 1000)

  /** `cors_origins_list`: the comma-separated pieces, each stripped of surrounding whitespace. */
  function CorsOriginsList(s: Settings): (r: seq<string>)
    ensures |r| == Count(s.corsOrigins, ',') + 1
    ensures |r| == |Split(s.corsOrigins, ',')|
    ensures forall i :: 0 <= i < |r| ==> r[i] == Strip(Split(s.corsOrigins, ',')[i])
  {
    var pieces := Split(s.corsOrigins, ',');
    SplitLength(s.corsOrigins, ',');
    seq(|pieces|, i requires 0 <= i < |pieces| => Strip(pieces[i]))
  }

  /** No origin contains a comma, and none starts or ends with whitespace. */
  lemma CorsOriginsClean(s: Settings)
    ensures forall o :: o in CorsOriginsList(s) ==> ',' !in o
    ensures forall o :: o in CorsOriginsList(s) ==> o == [] || (!IsSpace(o[0]) && !IsSpace(o[|o| - 1]))
  {
    var pieces := Split(s.corsOrigins, ',');
    var r := CorsOriginsList(s);
    SplitDropsSeparator(s.corsOrigins, ',');
    forall o | o in r
      ensures ',' !in o
      ensures o == [] || (!IsSpace(o[0]) && !IsSpace(o[|o| - 1]))
    {
      var i :| 0 <= i < |r| && r[i] == o;
      assert pieces[i] in pieces;
      StripPiece(pieces[i]);
    }
  }

  /** Stripping a comma-free piece gives a comma-free origin without surrounding whitespace. */
  lemma StripPiece(p: string)
    requires ',' !in p
    ensures ',' !in Strip(p)
    ensures Strip(p) == [] || (!IsSpace(Strip(p)[0]) && !IsSpace(Strip(p)[|Strip(p)| - 1]))
  {
  }

  /** Without whitespace in the setting, the list joined back with commas is the setting itself. */
  lemma CorsOriginsJoin(s: Settings)
    requires forall i :: 0 <= i < |s.corsOrigins| ==> !IsSpace(s.corsOrigins[i])
    ensures Join(CorsOriginsList(s), ',') == s.corsOrigins
  {
    var pieces := Split(s.corsOrigins, ',');
    SplitPiecesFromInput(s.corsOrigins, ',');
    forall i | 0 <= i < |pieces|
      ensures Strip(pieces[i]) == pieces[i]
    {
      assert forall j :: 0 <= j < |pieces[i]| ==> pieces[i][j] in s.corsOrigins;
    }
    assert CorsOriginsList(s) == pieces;
    SplitJoin(s.corsOrigins, ',');
  }

  /** The environment tests compare the lower-cased name, so only a name of the right length passes. */
  predicate IsProduction(s: Settings)
    ensures IsProduction(s) ==> |s.environment| == 10 && !IsDevelopment(s) && !IsStaging(s)
  {
    Lower(s.environment) == "production"
  }

  predicate IsDevelopment(s: Settings)
    ensures IsDevelopment(s) ==> |s.environment| == 11 && !IsStaging(s)
  {
    Lower(s.environment) == "development"
  }

  predicate IsStaging(s: Settings)
    ensures IsStaging(s) ==> |s.environment| == 7
  {
    Lower(s.environment) == "staging"
  }

  /** The three classifications compare case-insensitively and exclude each other. */
  lemma EnvironmentClassification(s: Settings)
    ensures !(IsProduction(s) && IsDevelopment(s))
    ensures !(IsProduction(s) && IsStaging(s))
    ensures !(IsDevelopment(s) && IsStaging(s))
    ensures s.environment == "PRODUCTION" ==> IsProduction(s)
    ensures s.environment == "Staging" ==> IsStaging(s)
  {
    if s.environment == "PRODUCTION" {
      assert Lower(s.environment) == "production";
    }
    if s.environment == "Staging" {
      assert Lower(s.environment) == "staging";
    }
  }

  /** `database_connection_string`: postgresql in production requires TLS; otherwise the URL as is. */
  function DatabaseConnectionString(s: Settings): (r: string)
    ensures s.databaseType == "postgresql" && IsProduction(s) ==> r == s.databaseUrl + "?sslmode=require"
    ensures !(s.databaseType == "postgresql" && IsProduction(s)) ==> r == s.databaseUrl
  {
    if s.databaseType == "sqlite" then s.databaseUrl
    else if s.databaseType == "postgresql" then
      (if IsProduction(s) then s.databaseUrl + "?sslmode=require" else s.databaseUrl)
    else s.databaseUrl
  }

  /** `get_database_url(with_echo)`: an echo query parameter only when both flags are set. */
  function GetDatabaseUrl(s: Settings, withEcho: bool): (r: string)
    ensures !(withEcho && s.databaseEcho) ==> r == DatabaseConnectionString(s)
    ensures withEcho && s.databaseEcho ==>
      r == DatabaseConnectionString(s) + (if '?' in DatabaseConnectionString(s) then "&echo=true" else "?echo=true")
  {
    var url := DatabaseConnectionString(s);
    if withEcho && s.databaseEcho then
      (if Contains(url, '?') then url + "&echo=true" else url + "?echo=true")
    else url
  }

  lemma CountAppend(a: string, b: string, c: char)
    ensures Count(a + b, c) == Count(a, c) + Count(b, c)
  {
    if a != [] {
      assert (a + b)[0] == a[0];
      assert (a + b)[1..] == a[1..] + b;
      CountAppend(a[1..], b, c);
    } else {
      assert a + b == b;
    }
  }

  lemma CountZero(a: string, c: char)
    requires c !in a
    ensures Count(a, c) == 0
  {
    if a != [] {
      CountZero(a[1..], c);
    }
  }

  /** Appending '?' and a query without '?' to a URL without '?' leaves exactly one. */
  lemma AppendQuery(url: string, query: string)
    requires Count(url, '?') == 0 && '?' !in query
    ensures Count(url + ['?'] + query, '?') == 1
  {
    assert url + ['?'] + query == url + (['?'] + query);
    CountAppend(url, ['?'] + query, '?');
    assert (['?'] + query)[0] == '?';
    assert (['?'] + query)[1..] == query;
    CountZero(query, '?');
  }

  /** The sslmode suffix adds exactly one '?'. */
  lemma ConnectionStringQueries(s: Settings)
    requires Count(s.databaseUrl, '?') == 0
    ensures Count(DatabaseConnectionString(s), '?') <= 1
  {
    var conn := DatabaseConnectionString(s);
    if conn != s.databaseUrl {
      assert conn == s.databaseUrl + ['?'] + "sslmode=require";
      AppendQuery(s.databaseUrl, "sslmode=require");
    }
  }

  /** The echo parameter never opens a second query string: a URL with no '?' ends with at most one. */
  lemma {:induction false} DatabaseUrlSingleQuery(s: Settings, withEcho: bool)
    requires Count(s.databaseUrl, '?') == 0
    ensures Count(GetDatabaseUrl(s, withEcho), '?') <= 1
  {
    var conn := DatabaseConnectionString(s);
    var r := GetDatabaseUrl(s, withEcho);
    ConnectionStringQueries(s);
    if r != conn {
      var tail := "echo=true";
      if '?' in conn {
        assert r == conn + (['&'] + tail);
        CountAppend(conn, ['&'] + tail, '?');
        CountZero(['&'] + tail, '?');
      } else {
        CountZero(conn, '?');
        assert r == conn + ['?'] + tail;
        AppendQuery(conn, tail);
      }
    }
  }

  /** `api_url`: scheme, host, port and the API prefix. */
  function ApiUrl(s: Settings): (r: string)
    ensures |r| > 8 + |s.serverHost| + |s.apiPrefix|
    ensures r[..7] == "http://"
    ensures r[|r| - |s.apiPrefix|..] == s.apiPrefix
    ensures r[7..7 + |s.serverHost|] == s.serverHost && r[7 + |s.serverHost|] == ':'
    ensures r[8 + |s.serverHost|..|r| - |s.apiPrefix|] == IntToString(s.serverPort)
  {
    "http://" + s.serverHost + ":" + IntToString(s.serverPort) + s.apiPrefix
  }

  /** The text of the URL's port part, between the host's colon and the API prefix. */
  function PortText(s: Settings): string {
    var url := ApiUrl(s);
    url[8 + |s.serverHost|..|url| - |s.apiPrefix|]
  }

  /**
   * The port can be read back from the URL: its decimal digits, after a sign for a negative port,
   * have the port's value.
   */
  lemma ApiUrlPortReadBack(s: Settings)
    ensures s.serverPort >= 0 ==>
      (forall i :: 0 <= i < |PortText(s)| ==> '0' <= PortText(s)[i] <= '9')
      && DigitsValue(PortText(s)) == s.serverPort
    ensures s.serverPort < 0 ==>
      PortText(s)[0] == '-' && (forall i :: 1 <= i < |PortText(s)| ==> '0' <= PortText(s)[i] <= '9')
      && DigitsValue(PortText(s)[1..]) == -s.serverPort
  {
    assert PortText(s) == IntToString(s.serverPort);
    if s.serverPort >= 0 {
      NatToStringRoundTrip(s.serverPort);
    } else {
      NegativeIntToString(s.serverPort);
    }
  }

  /** The default settings serve the API at http://0.0.0.0:8000/api. */
  lemma DefaultApiUrl()
    ensures ApiUrl(DEFAULT_SETTINGS) == "http://0.0.0.0:8000/api"
  {
    DefaultPortText();
    var d := DEFAULT_SETTINGS;
    assert ApiUrl(d) == "http://" + d.serverHost + ":" + IntToString(d.serverPort) + d.apiPrefix;
  }

  /** The default port renders as `8000`. */
  lemma DefaultPortText()
    ensures IntToString(8000) == "8000"
  {
    assert Digit(8) == '8' && Digit(0) == '0';
    assert NatToString(8) == "8";
    assert NatToString(80) == NatToString(8) + [Digit(0)] == "80";
    assert NatToString(800) == NatToString(80) + [Digit(0)] == "800";
    assert NatToString(8000) == NatToString(800) + [Digit(0)] == "8000";
  }

  /** The settings classes `get_settings_by_env` chooses between. */
  datatype SettingsKind = DevelopmentSettings | ProductionSettings | StagingSettings

  /** `get_settings_by_env(env)`: `None` means the environment of the base settings. */
  function GetSettingsByEnv(env: Option<string>, baseEnvironment: string): (k: SettingsKind)
    ensures var e := if env.Some? then env.value else baseEnvironment;
      && (k == ProductionSettings <==> Lower(e) == "production")
      && (k == StagingSettings <==> Lower(e) == "staging")
      && (k == DevelopmentSettings <==> Lower(e) != "production" && Lower(e) != "staging")
  {
    var e := if env.Some? then env.value else baseEnvironment;
    if Lower(e) == "production" then ProductionSettings
    else if Lower(e) == "staging" then StagingSettings
    else DevelopmentSettings
  }

  /** The class defaults of each environment-specific settings class. */
  function KindDefaults(k: SettingsKind): (s: Settings)
    ensures k == ProductionSettings ==> !s.debug && s.authEnabled && s.cacheEnabled && !s.databaseEcho
    ensures k == StagingSettings ==> !s.debug && !s.authEnabled && s.cacheEnabled && !s.databaseEcho
    ensures k == DevelopmentSettings ==> s.debug && !s.authEnabled && !s.cacheEnabled && s.databaseEcho
    ensures s.environment == DEFAULT_SETTINGS.environment
  {
    match k
    case DevelopmentSettings =>
      DEFAULT_SETTINGS.(debug := true, databaseEcho := true, logLevel := "DEBUG", cacheEnabled := false)
    case ProductionSettings =>
      DEFAULT_SETTINGS.(debug := false, databaseEcho := false, logLevel := "INFO", cacheEnabled := true, authEnabled := true)
    case StagingSettings =>
      DEFAULT_SETTINGS.(debug := false, databaseEcho := false, logLevel := "INFO", cacheEnabled := true)
  }

  /**
   * The production class does not override `environment`: without an ENVIRONMENT variable its
   * defaults still classify as development, so `database_connection_string` adds no sslmode.
   */
  lemma ProductionDefaultsClassifyAsDevelopment(url: string)
    ensures IsDevelopment(KindDefaults(ProductionSettings))
    ensures !IsProduction(KindDefaults(ProductionSettings))
    ensures DatabaseConnectionString(KindDefaults(ProductionSettings).(databaseType := "postgresql", databaseUrl := url)) == url
  {
    assert Lower("development") == "development";
  }

  /** Development defaults ask for SQL echo: its URL gets `?echo=true` when echo is requested. */
  lemma DevelopmentEchoUrl()
    ensures GetDatabaseUrl(KindDefaults(DevelopmentSettings), true) == "sqlite:///./starcourier.db?echo=true"
  {
    var s := KindDefaults(DevelopmentSettings);
    var url := "sqlite:///./starcourier.db";
    assert s.databaseType == "sqlite" && s.databaseEcho && s.databaseUrl == url;
    assert DatabaseConnectionString(s) == url;
    assert forall i :: 0 <= i < |url| ==> url[i] != '?';
  }
}

=== FILE: display.dfy ===
/** The two display helpers of the global `$utils` object (frontend/src/main.js). */
module Display {

  /** `formatStat(value, max)`: `Math.min(max, Math.max(0, value))`. */
  function FormatStat(value: int, max: int): (r: int)
    ensures 0 <= max ==> 0 <= r <= max
    ensures 0 <= value <= max ==> r == value
    ensures value < 0 && 0 <= max ==> r == 0
    ensures max < value ==> r == max
  {
    if max < (if 0 < value then value else 0) then max
    else if 0 < value then value else 0
  }

  /** `formatStat` with the default maximum of 100. */
  function FormatPercentStat(value: int): (r: int)
    ensures 0 <= r <= 100
  {
    FormatStat(value, 100)
  }

  /** Formatting twice is formatting once. */
  lemma FormatStatIdempotent(value: int, max: int)
    requires 0 <= max
    ensures FormatStat(FormatStat(value, max), max) == FormatStat(value, max)
  {
  }

  /** The four colours `getStatColor` answers with. */
  const GREEN: string := "#22c55e"
  const YELLOW: string := "#eab308"
  const ORANGE: string := "#f97316"
  const RED: string := "#ef4444"

  /** `getStatColor(value)`: thresholds tested from the highest down. */
  function GetStatColor(value: int): (r: string)
    ensures r == GREEN <==> 70 <= value
    ensures r == YELLOW <==> 40 <= value < 70
    ensures r == ORANGE <==> 20 <= value < 40
    ensures r == RED <==> value < 20
  {
    if value >= 70 then GREEN
    else if value >= 40 then YELLOW
    else if value >= 20 then ORANGE
    else RED
  }

  /** Every value gets exactly one of the four colours, and a larger value never a "worse" one. */
  lemma StatColorMonotone(a: int, b: int)
    requires a <= b
    ensures ColourRank(GetStatColor(a)) <= ColourRank(GetStatColor(b))
  {
  }

  /** Rank of a colour from red (0) to green (3). */
  function ColourRank(c: string): (k: nat)
    ensures k <= 3
  {
    if c == GREEN then 3 else if c == YELLOW then 2 else if c == ORANGE then 1 else 0
  }
}

=== FILE: game_store.dfy ===
/**
 * The game store of the front end (frontend/src/store/game.js): the session fields, the
 * `isGameOver` / `gameSummary` / `playtime` getters and the actions `initializeGame`, `makeChoice`,
 * `resetGame` and the local save collection kept in browser storage under `starCourierSavedGames`.
 * Server answers, the clock and the generated player id are parameters; the storage entry is a
 * field holding the parsed records, nothing, or text that does not parse.
 */
module GameStore {
  import opened Wrappers
  import Text
  import BackendGame

  type Stats = map<string, int>

  const DEFAULT_STATS: Stats := map[
    "health" := 100, "morale" := 75, "knowledge" := 30, "team" := 50, "danger" := 0,
    "security" := 20, "fuel" := 100, "money" := 1000, "psychic" := 0, "trust" := 50]

  const DEFAULT_RELATIONSHIPS: map<string, int> := map["sara_nova" := 50, "grisha_romanov" := 60, "li_zheng" := 45]

  const DEFAULT_INVENTORY: seq<string> := ["Брекер кодов", "Боевой нож"]

  /** The storage key of the save collection. */
  const SAVES_KEY: string := "starCourierSavedGames"

  /** The session part of the store's state, as one value. */
  datatype Session = Session(
    isGameStarted: bool,
    playerId: Option<string>,
    currentSceneId: string,
    currentScene: Option<BackendGame.SceneView>,
    choicesMade: int,
    visitedScenes: seq<string>,
    stats: Stats,
    relationships: map<string, int>,
    inventory: seq<string>,
    startTime: Option<int>,
    sessionDuration: int)

  /** The session of a fresh store, which `resetGame` restores. */
  const INITIAL_SESSION: Session :=
    Session(false, None, "start", None, 0, ["start"], DEFAULT_STATS, DEFAULT_RELATIONSHIPS,
            DEFAULT_INVENTORY, None, 0)

  /** `visitedScenes` is a JS `Set`: a sequence in insertion order without repeats. */
  predicate NoRepeats(s: seq<string>) {
    forall i, j :: 0 <= i < j < |s| ==> s[i] != s[j]
  }

  /** `Set.prototype.add`. */
  function SetAdd(s: seq<string>, x: string): (r: seq<string>)
    ensures NoRepeats(s) ==> NoRepeats(r)
    ensures forall y :: y in r <==> y in s || y == x
    ensures |r| == if x in s then |s| else |s| + 1
  {
    if x in s then s else s + [x]
  }

  /** The `isGameOver` getter; a missing stat is `undefined`, which is not `<= 0`. */
  predicate IsGameOver(stats: Stats)
    ensures "health" !in stats && "morale" !in stats ==> !IsGameOver(stats)
    ensures "health" in stats && "morale" in stats ==> (IsGameOver(stats) <==> BackendGame.Defeated(stats))
  {
    ("health" in stats && stats["health"] <= 0) || ("morale" in stats && stats["morale"] <= 0)
  }

  /** The `playtime` getter at time `now`: whole seconds since the start, 0 without one. */
  function Playtime(startTime: Option<int>, now: int): (r: int)
    ensures startTime.None? || startTime.value == 0 ==> r == 0
    ensures startTime.Some? && startTime.value != 0 ==>
      1000 * r <= now - startTime.value < 1000 * r + 1000
  {
    if startTime.None? || startTime.value == 0 then 0 else (now - startTime.value) / 1000
  }

  /** The `gameSummary` getter. */
  datatype Summary = Summary(
    playerId: Option<string>,
    currentScene: string,
    choicesMade: int,
    stats: Stats,
    relationships: map<string, int>,
    visitedScenes: seq<string>,
    inventory: seq<string>)

  function GameSummary(s: Session): (r: Summary)
    ensures r.playerId == s.playerId && r.currentScene == s.currentSceneId && r.choicesMade == s.choicesMade
    ensures r.stats == s.stats && r.relationships == s.relationships
    ensures r.visitedScenes == s.visitedScenes && r.inventory == s.inventory
  {
    Summary(s.playerId, s.currentSceneId, s.choicesMade, s.stats, s.relationships, s.visitedScenes, s.inventory)
  }

  /** One element of the save collection. */
  datatype SaveRecord = SaveRecord(
    id: string,
    name: string,
    timestamp: string,
    playerId: Option<string>,
    currentSceneId: string,
    choicesMade: int,
    stats: Stats,
    relationships: map<string, int>,
    inventory: seq<string>,
    startTime: Option<int>,
    playtime: int)

  /** The storage entry: missing, a parsed list of records, or text `JSON.parse` rejects. */
  datatype Slot = Absent | Stored(records: seq<SaveRecord>) | Unreadable

  /** What `loadAllSavedGames` reads from the entry (`[]` when it is missing or unreadable). */
  function SlotRecords(slot: Slot): (r: seq<SaveRecord>)
    ensures slot.Stored? ==> r == slot.records
    ensures !slot.Stored? ==> r == []
  {
    if slot.Stored? then slot.records else []
  }

  /** The name a save gets: the given one, or `Сохранение #n` numbered after the known saves. */
  function SaveName(saveName: string, known: nat): (r: string)
    ensures saveName != "" ==> r == saveName
    ensures saveName == "" ==> r == "Сохранение #" + Text.NatToString(known + 1)
  {
    if saveName != "" then saveName else "Сохранение #" + Text.NatToString(known + 1)
  }

  /** The record `saveGame` builds from a session. */
  function MakeRecord(s: Session, id: string, name: string, timestamp: string, now: int): (r: SaveRecord)
    ensures r.id == id && r.name == name
    ensures r.playtime == Playtime(s.startTime, now)
  {
    SaveRecord(id, name, timestamp, s.playerId, s.currentSceneId, s.choicesMade, s.stats,
               s.relationships, s.inventory, s.startTime, Playtime(s.startTime, now))
  }

  /** What `loadGame` writes back from a record; the fields a save does not hold stay as they are. */
  function Restore(s: Session, r: SaveRecord): (t: Session)
    ensures t.isGameStarted
    ensures t.currentScene == s.currentScene && t.visitedScenes == s.visitedScenes
    ensures t.sessionDuration == s.sessionDuration
  {
    s.(playerId := r.playerId, currentSceneId := r.currentSceneId, choicesMade := r.choicesMade,
       stats := r.stats, relationships := r.relationships, inventory := r.inventory,
       startTime := r.startTime, isGameStarted := true)
  }

  /** `saves.find(save => save.id === id)`. */
  function FindSave(saves: seq<SaveRecord>, id: string): (r: Option<SaveRecord>)
    ensures r.None? <==> forall i :: 0 <= i < |saves| ==> saves[i].id != id
    ensures r.Some? ==> exists k :: 0 <= k < |saves| && saves[k] == r.value && r.value.id == id
                                    && forall i :: 0 <= i < k ==> saves[i].id != id
  {
    if saves == [] then None
    else if saves[0].id == id then Some(saves[0])
    else
      var r := FindSave(saves[1..], id);
      assert forall i :: 1 <= i < |saves| ==> saves[i] == saves[1..][i - 1];
      r
  }

  /** `saves.filter(save => save.id !== id)`. */
  function RemoveSave(saves: seq<SaveRecord>, id: string): (r: seq<SaveRecord>)
    ensures forall x :: x in r <==> x in saves && x.id != id
    ensures |r| <= |saves|
  {
    if saves == [] then []
    else if saves[0].id == id then RemoveSave(saves[1..], id)
    else [saves[0]] + RemoveSave(saves[1..], id)
  }

  /** Saving appends at the end: the new record is found by its id when no older record has it. */
  lemma {:induction false} FindAppended(saves: seq<SaveRecord>, r: SaveRecord)
    requires forall i :: 0 <= i < |saves| ==> saves[i].id != r.id
    ensures FindSave(saves + [r], r.id) == Some(r)
  {
    if saves != [] {
      assert (saves + [r])[1..] == saves[1..] + [r];
      FindAppended(saves[1..], r);
    }
  }

  /**
   * Round trip: a record saved from session `s` and then found by its id restores every field a
   * save holds and marks the game as started.
   */
  lemma SaveLoadRoundTrip(saves: seq<SaveRecord>, s: Session, t: Session, id: string, name: string,
                          timestamp: string, now: int)
    requires forall i :: 0 <= i < |saves| ==> saves[i].id != id
    ensures var rec := MakeRecord(s, id, name, timestamp, now);
      FindSave(saves + [rec], id) == Some(rec)
      && Restore(t, rec) == s.(isGameStarted := true, currentScene := t.currentScene,
                                visitedScenes := t.visitedScenes, sessionDuration := t.sessionDuration)
  {
    FindAppended(saves, MakeRecord(s, id, name, timestamp, now));
  }

  /** Removal keeps the surviving records in their order: it distributes over concatenation. */
  lemma {:induction false} RemoveSaveConcat(a: seq<SaveRecord>, b: seq<SaveRecord>, id: string)
    ensures RemoveSave(a + b, id) == RemoveSave(a, id) + RemoveSave(b, id)
  {
    if a == [] {
      assert a + b == b;
    } else {
      assert (a + b)[0] == a[0];
      assert (a + b)[1..] == a[1..] + b;
      RemoveSaveConcat(a[1..], b, id);
    }
  }

  /** Removing an id no record carries leaves the collection as it was. */
  lemma {:induction false} RemoveUnknownSave(saves: seq<SaveRecord>, id: string)
    requires forall i :: 0 <= i < |saves| ==> saves[i].id != id
    ensures RemoveSave(saves, id) == saves
  {
    if saves != [] {
      RemoveUnknownSave(saves[1..], id);
      assert [saves[0]] + saves[1..] == saves;
    }
  }

  /** What `exportGameData` serialises. */
  datatype Bundle = Bundle(version: string, exportDate: string, currentGame: Summary, savedGames: seq<SaveRecord>)

  const EXPORT_VERSION: string := "1.0.0"

  /** What `importGameData` gets from `JSON.parse`: a version (empty when falsy) and maybe saves. */
  datatype ImportData = ImportData(version: string, savedGames: Option<seq<SaveRecord>>)

  /** An exported bundle read back by `JSON.parse`. */
  function Reparse(b: Bundle): ImportData {
    ImportData(b.version, Some(b.savedGames))
  }

  /** The collection `importGameData` installs: `data.savedGames || []`. */
  function ImportedSaves(d: ImportData): (r: seq<SaveRecord>)
    ensures d.savedGames.Some? ==> r == d.savedGames.value
    ensures d.savedGames.None? ==> r == []
  {
    if d.savedGames.Some? then d.savedGames.value else []
  }

  /** Why `importGameData` throws. */
  datatype ImportError = Malformed | MissingVersion

  const IMPORT_FAILED: string := "Не удалось импортировать данные"
  const LOAD_FAILED: string := "Не удалось загрузить игру"
  const SAVE_NOT_FOUND: string := "Сохранение не найдено"
  const INIT_FAILED: string := "Ошибка при инициализации игры"
  const CHOICE_FAILED: string := "Ошибка при обработке выбора"

  /** The session after a successful `initializeGame`. */
  function Started(s: Session, playerId: string, reply: BackendGame.StartResponse, now: int): (t: Session)
    ensures t.isGameStarted && t.playerId == Some(playerId) && t.choicesMade == 0
    ensures t.currentSceneId == reply.scene.id && t.stats == reply.stats
    ensures t.visitedScenes == ["start"] && t.startTime == Some(now)
    ensures t.relationships == reply.relationships && t.currentScene == Some(reply.scene)
    ensures t.inventory == s.inventory && t.sessionDuration == s.sessionDuration
  {
    s.(playerId := Some(playerId), currentSceneId := reply.scene.id, currentScene := Some(reply.scene),
       stats := reply.stats, relationships := reply.relationships, isGameStarted := true,
       startTime := Some(now), choicesMade := 0, visitedScenes := ["start"])
  }

  /** The session after `makeChoice` received a successful (not game-over) answer. */
  function Advanced(s: Session, nextSceneId: string, scene: BackendGame.SceneView, stats: Stats,
                    relationships: map<string, int>, choicesMade: int): (t: Session)
    ensures t.currentSceneId == scene.id && t.stats == stats && t.choicesMade == choicesMade
    ensures t.visitedScenes == SetAdd(s.visitedScenes, nextSceneId)
    ensures t.relationships == relationships && t.currentScene == Some(scene)
    ensures t.isGameStarted == s.isGameStarted && t.playerId == s.playerId && t.inventory == s.inventory
    ensures t.startTime == s.startTime && t.sessionDuration == s.sessionDuration
  {
    s.(currentSceneId := scene.id, currentScene := Some(scene), stats := stats,
       relationships := relationships, choicesMade := choicesMade,
       visitedScenes := SetAdd(s.visitedScenes, nextSceneId))
  }

  /** The session after `makeChoice` received a successful reply: a game-over reply changes nothing. */
  function AfterReply(s: Session, nextSceneId: string, reply: BackendGame.ChoiceResponse): (t: Session)
    ensures reply.GameOver? ==> t == s
    ensures reply.Advanced? ==> t.stats == reply.stats && t.currentSceneId == reply.scene.id
    ensures reply.Advanced? ==> t == Advanced(s, nextSceneId, reply.scene, reply.stats, reply.relationships, reply.choicesMade)
  {
    match reply
    case GameOver(_, _) => s
    case Advanced(scene, stats, relationships, choicesMade) =>
      Advanced(s, nextSceneId, scene, stats, relationships, choicesMade)
  }

  /** An error message or, when it is empty, the store's fallback text (`err.message || ...`). */
  function OrDefault(message: string, fallback: string): (r: string)
    ensures r != "" || fallback == ""
    ensures message != "" ==> r == message
  {
    if message != "" then message else fallback
  }

  class Store {
    /** The game fields of the store's state (everything `Session` lists). */
    var session: Session
    var isLoading: bool
    var error: Option<string>
    var savedGames: seq<SaveRecord>
    var autoSaveEnabled: bool
    /** The browser storage entry under `SAVES_KEY`. */
    var storage: Slot

    function CurrentSession(): Session
      reads this
    {
      session
    }

    /** `visitedScenes` behaves as a set that always holds `start`. */
    ghost predicate Valid()
      reads this
    {
      NoRepeats(session.visitedScenes) && "start" in session.visitedScenes
    }

    /** A fresh store over whatever the storage entry already holds. */
    constructor (storage: Slot)
      ensures Valid()
      ensures CurrentSession() == INITIAL_SESSION && !isLoading && error.None?
      ensures savedGames == [] && !autoSaveEnabled && this.storage == storage
    {
      session := INITIAL_SESSION;
      isLoading, error := false, None;
      savedGames, autoSaveEnabled := [], false;
      this.storage := storage;
    }

    /** `resetGame()`: the defaults again; the save collection and the storage are kept. */
    method ResetGame()
      requires Valid()
      modifies this
      ensures Valid()
      ensures CurrentSession() == INITIAL_SESSION && error.None?
      ensures isLoading == old(isLoading) && savedGames == old(savedGames)
      ensures autoSaveEnabled == old(autoSaveEnabled) && storage == old(storage)
    {
      session := INITIAL_SESSION;
      error := None;
    }

    /**
     * `initializeGame()` with the id `generatePlayerId()` produced, the answer of POST /game/start
     * (or the error message), and the clock reading. The new id is kept even when the call fails.
     */
    method InitializeGame(newPlayerId: string, reply: Result<BackendGame.StartResponse, string>, now: int)
      returns (r: Result<BackendGame.StartResponse, string>)
      requires Valid()
      modifies this
      ensures Valid() && !isLoading && r == reply
      ensures reply.Success? ==>
        CurrentSession() == Started(old(CurrentSession()), newPlayerId, reply.value, now) && error.None?
      ensures reply.Failure? ==>
        CurrentSession() == old(CurrentSession()).(playerId := Some(newPlayerId))
        && error == Some(OrDefault(reply.error, INIT_FAILED))
      ensures savedGames == old(savedGames) && storage == old(storage) && autoSaveEnabled == old(autoSaveEnabled)
    {
      isLoading, error := true, None;
      session := session.(playerId := Some(newPlayerId));
      if reply.Failure? {
        error := Some(OrDefault(reply.error, INIT_FAILED));
      } else {
        session := Started(session, newPlayerId, reply.value, now);
      }
      isLoading := false;
      r := reply;
    }

    /**
     * `makeChoice(nextSceneId, statChanges)` given the answer of POST /game/choose. A game-over
     * answer is passed on without touching the session; a successful one is copied in and the
     * scene is recorded as visited.
     */
    method MakeChoice(nextSceneId: string, reply: Result<BackendGame.ChoiceResponse, string>)
      returns (r: Result<BackendGame.ChoiceResponse, string>)
      requires Valid()
      modifies this
      ensures Valid() && !isLoading && r == reply
      ensures reply.Success? ==> CurrentSession() == AfterReply(old(CurrentSession()), nextSceneId, reply.value)
      ensures reply.Success? && reply.value.GameOver? ==> CurrentSession() == old(CurrentSession()) && error.None?
      ensures reply.Success? && reply.value.Advanced? ==>
        var a := reply.value;
        CurrentSession() == Advanced(old(CurrentSession()), nextSceneId, a.scene, a.stats, a.relationships, a.choicesMade)
        && error.None?
      ensures reply.Failure? ==>
        CurrentSession() == old(CurrentSession()) && error == Some(OrDefault(reply.error, CHOICE_FAILED))
      ensures savedGames == old(savedGames) && storage == old(storage) && autoSaveEnabled == old(autoSaveEnabled)
    {
      isLoading, error := true, None;
      if reply.Failure? {
        error := Some(OrDefault(reply.error, CHOICE_FAILED));
      } else if reply.value.Advanced? {
        var a := reply.value;
        session := Advanced(session, nextSceneId, a.scene, a.stats, a.relationships, a.choicesMade);
      }
      isLoading := false;
      r := reply;
    }

    /** `loadAllSavedGames()`: read the entry; `savedGames` mirrors what was read. */
    method LoadAllSavedGames() returns (saves: seq<SaveRecord>)
      modifies this
      ensures saves == SlotRecords(storage) && savedGames == saves
      ensures CurrentSession() == old(CurrentSession()) && storage == old(storage)
      ensures error == old(error) && isLoading == old(isLoading) && autoSaveEnabled == old(autoSaveEnabled)
    {
      saves := SlotRecords(storage);
      savedGames := saves;
    }

    /**
     * `saveGame(saveName)` at time `now` (ISO text `isoTime`): the record is appended to what the
     * entry holds and the result written back. The default name counts the saves known before the
     * entry was re-read.
     */
    method SaveGame(saveName: string, now: nat, isoTime: string) returns (r: SaveRecord)
      modifies this
      ensures r == MakeRecord(old(CurrentSession()), Text.NatToString(now),
                              SaveName(saveName, |old(savedGames)|), isoTime, now)
      ensures storage == Stored(SlotRecords(old(storage)) + [r]) && savedGames == storage.records
      ensures CurrentSession() == old(CurrentSession())
      ensures error == old(error) && isLoading == old(isLoading) && autoSaveEnabled == old(autoSaveEnabled)
    {
      var name := SaveName(saveName, |savedGames|);
      r := MakeRecord(CurrentSession(), Text.NatToString(now), name, isoTime, now);
      var existing := LoadAllSavedGames();
      existing := existing + [r];
      storage := Stored(existing);
      savedGames := existing;
    }

    /**
     * `loadGame(saveId)`: restore the first record with that id. An unknown id changes no session
     * field; `savedGames` has still been re-read and `error` is set.
     */
    method LoadGame(saveId: string) returns (r: Result<SaveRecord, string>)
      modifies this
      ensures savedGames == SlotRecords(storage) && storage == old(storage)
      ensures FindSave(SlotRecords(storage), saveId).Some? ==>
        r == Success(FindSave(SlotRecords(storage), saveId).value)
        && CurrentSession() == Restore(old(CurrentSession()), r.value) && error == old(error)
      ensures FindSave(SlotRecords(storage), saveId).None? ==>
        r == Failure(SAVE_NOT_FOUND) && CurrentSession() == old(CurrentSession()) && error == Some(LOAD_FAILED)
      ensures isLoading == old(isLoading) && autoSaveEnabled == old(autoSaveEnabled)
    {
      var saves := LoadAllSavedGames();
      var found := FindSave(saves, saveId);
      if found.None? {
        error := Some(LOAD_FAILED);
        return Failure(SAVE_NOT_FOUND);
      }
      session := Restore(session, found.value);
      r := Success(found.value);
    }

    /** `deleteSave(saveId)`: drop every record with that id and write the rest back. */
    method DeleteSave(saveId: string)
      modifies this
      ensures storage == Stored(RemoveSave(SlotRecords(old(storage)), saveId)) && savedGames == storage.records
      ensures CurrentSession() == old(CurrentSession())
      ensures error == old(error) && isLoading == old(isLoading) && autoSaveEnabled == old(autoSaveEnabled)
    {
      var saves := LoadAllSavedGames();
      var kept := RemoveSave(saves, saveId);
      storage := Stored(kept);
      savedGames := kept;
    }

    /** `clearAllSaves()`: remove the entry. */
    method ClearAllSaves()
      modifies this
      ensures storage == Absent && savedGames == []
      ensures CurrentSession() == old(CurrentSession())
      ensures error == old(error) && isLoading == old(isLoading) && autoSaveEnabled == old(autoSaveEnabled)
    {
      storage := Absent;
      savedGames := [];
    }

    /** `exportGameData()` before serialisation, with `exportDate` the clock reading. */
    function ExportGameData(exportDate: string): (b: Bundle)
      reads this
      ensures b.version == EXPORT_VERSION && b.savedGames == savedGames
      ensures b.currentGame == GameSummary(CurrentSession())
    {
      Bundle(EXPORT_VERSION, exportDate, GameSummary(CurrentSession()), savedGames)
    }

    /**
     * `importGameData(json)` given what `JSON.parse` made of the text (`None` when it threw). Data
     * without a version is rejected; otherwise its saves replace the collection, nothing merged.
     */
    method ImportGameData(data: Option<ImportData>) returns (r: Result<ImportData, ImportError>)
      modifies this
      ensures data.None? ==> r == Failure(Malformed)
      ensures data.Some? && data.value.version == "" ==> r == Failure(MissingVersion)
      ensures r.Failure? ==>
        error == Some(IMPORT_FAILED) && savedGames == old(savedGames) && storage == old(storage)
      ensures r.Success? <==> data.Some? && data.value.version != ""
      ensures r.Success? ==>
        r.value == data.value && savedGames == ImportedSaves(data.value)
        && storage == Stored(savedGames) && error == old(error)
      ensures CurrentSession() == old(CurrentSession())
      ensures isLoading == old(isLoading) && autoSaveEnabled == old(autoSaveEnabled)
    {
      if data.None? {
        error := Some(IMPORT_FAILED);
        return Failure(Malformed);
      }
      if data.value.version == "" {
        error := Some(IMPORT_FAILED);
        return Failure(MissingVersion);
      }
      savedGames := ImportedSaves(data.value);
      storage := Stored(savedGames);
      r := Success(data.value);
    }
  }

  /** Importing what was exported is accepted and installs exactly the exported saves. */
  lemma ImportOfExport(b: Bundle)
    requires b.version == EXPORT_VERSION
    ensures Reparse(b).version != "" && ImportedSaves(Reparse(b)) == b.savedGames
  {
  }

  /** The front end's default stats and inventory are those the back end's `start_game` sets. */
  lemma DefaultStatsMatchBackend()
    ensures DEFAULT_STATS == BackendGame.INITIAL_STATS
    ensures DEFAULT_INVENTORY == BackendGame.INITIAL_INVENTORY
  {
  }

  /** The front end's default relationships are the characters' initial values on the back end. */
  lemma DefaultRelationshipsMatchBackend()
    ensures DEFAULT_RELATIONSHIPS == BackendGame.INITIAL_RELATIONSHIPS
  {
    assert BackendGame.INITIAL_RELATIONSHIPS.Keys == BackendGame.CHARACTERS.Keys;
  }

  /**
   * The front end's game-over test agrees with the back end's on any stats holding both keys, and a
   * fresh or reset store is not over. Agreement is on a stats map: the store never receives the
   * stats of a game the back end ended (see GameOverReplyNotSeen).
   */
  lemma GameOverAgrees(stats: Stats)
    requires "health" in stats && "morale" in stats
    ensures IsGameOver(stats) <==> BackendGame.Defeated(stats)
    ensures !IsGameOver(INITIAL_SESSION.stats)
  {
  }

  /**
   * When the back end ends the game, its `game_over` reply carries no stats, so the store keeps the
   * stats it had: a store that was not over stays not over, although the same stats arriving in an
   * ordinary reply would have ended the game here too.
   */
  lemma GameOverReplyNotSeen(s: Session, p: BackendGame.Progress, nextSceneId: string)
    requires "health" in p.stats && "morale" in p.stats && BackendGame.Defeated(p.stats)
    requires !IsGameOver(s.stats)
    ensures BackendGame.ChoiceAnswer(p, nextSceneId).GameOver?
    ensures !IsGameOver(AfterReply(s, nextSceneId, BackendGame.ChoiceAnswer(p, nextSceneId)).stats)
    ensures IsGameOver(AfterReply(s, nextSceneId, BackendGame.Advanced(
      BackendGame.GetSceneData(nextSceneId), p.stats, p.relationships, p.choicesMade)).stats)
  {
  }
}

=== FILE: text.dfy ===
/** String helpers used by the configuration and store models. */
module Text {

  /** Decimal rendering of a natural number, as `String(n)` / `str(n)` give it. */
  function NatToString(n: nat): (r: string)
    ensures |r| >= 1
    ensures forall i :: 0 <= i < |r| ==> '0' <= r[i] <= '9'
    ensures n > 0 ==> r[0] != '0'
    decreases n
  {
    if n < 10 then [Digit(n)] else NatToString(n / 10) + [Digit(n % 10)]
  }

  function Digit(d: nat): (c: char)
    requires d < 10
    ensures '0' <= c <= '9'
  {
    "0123456789"[d]
  }

  lemma DigitValue(d: nat)
    requires d < 10
    ensures Digit(d) as int - '0' as int == d
  {
  }

  /** The value of a string of decimal digits. */
  function DigitsValue(s: string): nat
    requires forall i :: 0 <= i < |s| ==> '0' <= s[i] <= '9'
  {
    if s == [] then 0 else DigitsValue(s[..|s| - 1]) * 10 + (s[|s| - 1] as int - '0' as int)
  }

  /** Rendering a number and reading it back gives the number: `NatToString` is injective. */
  lemma {:induction false} NatToStringRoundTrip(n: nat)
    ensures DigitsValue(NatToString(n)) == n
    decreases n
  {
    var s := NatToString(n);
    if n >= 10 {
      NatToStringRoundTrip(n / 10);
      assert s == NatToString(n / 10) + [Digit(n % 10)];
      assert s[..|s| - 1] == NatToString(n / 10);
      DigitValue(n % 10);
      assert DigitsValue(s) == DigitsValue(NatToString(n / 10)) * 10 + n % 10;
    } else {
      DigitValue(n);
      assert s[..0] == [];
    }
  }

  /** Decimal rendering of an integer, with a leading '-' for negatives. */
  function IntToString(n: int): (r: string)
    ensures |r| >= 1
    ensures n < 0 <==> r[0] == '-'
  {
    if n < 0 then "-" + NatToString(-n) else NatToString(n)
  }

  /** The text of a negative integer is a '-' followed by the digits of its absolute value. */
  lemma NegativeIntToString(n: int)
    requires n < 0
    ensures IntToString(n)[1..] == NatToString(-n)
    ensures forall i :: 1 <= i < |IntToString(n)| ==> '0' <= IntToString(n)[i] <= '9'
    ensures DigitsValue(IntToString(n)[1..]) == -n
  {
    var m: nat := -n;
    assert IntToString(n) == "-" + NatToString(m);
    NatToStringRoundTrip(m);
  }

  /** ASCII lower-casing of one character. */
  function LowerChar(c: char): (r: char)
    ensures 'A' <= c <= 'Z' ==> 'a' <= r <= 'z'
    ensures !('A' <= c <= 'Z') ==> r == c
  {
    if 'A' <= c <= 'Z' then (c as int - 'A' as int + 'a' as int) as char else c
  }

  /** Character-wise lower-casing (`str.lower()` restricted to ASCII letters). */
  function Lower(s: string): (r: string)
    ensures |r| == |s|
    ensures forall i :: 0 <= i < |s| ==> r[i] == LowerChar(s[i])
  {
    seq(|s|, i requires 0 <= i < |s| => LowerChar(s[i]))
  }

  /** The whitespace `str.strip()` removes, restricted to ASCII and the C0 separators. */
  predicate IsSpace(c: char) {
    c == ' ' || c == '\t' || c == '\n' || c == '\r' || c == '\U{B}' || c == '\U{C}'
    || ('\U{1C}' <= c <= '\U{1F}')
  }

  function StripLeft(s: string): (r: string)
    ensures |r| <= |s| && r == s[|s| - |r|..]
    ensures r == [] || !IsSpace(r[0])
    ensures forall i :: 0 <= i < |s| - |r| ==> IsSpace(s[i])
  {
    if s != [] && IsSpace(s[0]) then StripLeft(s[1..]) else s
  }

  function StripRight(s: string): (r: string)
    ensures |r| <= |s| && r == s[..|r|]
    ensures r == [] || !IsSpace(r[|r| - 1])
    ensures forall i :: |r| <= i < |s| ==> IsSpace(s[i])
  {
    if s != [] && IsSpace(s[|s| - 1]) then StripRight(s[..|s| - 1]) else s
  }

  /** `str.strip()`: drop leading and trailing whitespace. */
  function Strip(s: string): (r: string)
    ensures |r| <= |s|
    ensures r == [] || (!IsSpace(r[0]) && !IsSpace(r[|r| - 1]))
    ensures (forall i :: 0 <= i < |s| ==> !IsSpace(s[i])) ==> r == s
    ensures forall c :: c in r ==> c in s
  {
    StripRight(StripLeft(s))
  }

  /** What `Strip` removes is a whitespace-only prefix and a whitespace-only suffix, nothing else. */
  lemma StripIsInfix(s: string)
    ensures exists i, j :: 0 <= i <= j <= |s| && Strip(s) == s[i..j]
                          && (forall k :: 0 <= k < i ==> IsSpace(s[k])) && (forall k :: j <= k < |s| ==> IsSpace(s[k]))
  {
    var l := StripLeft(s);
    var i := |s| - |l|;
    var r := StripRight(l);
    assert l[..|r|] == s[i..i + |r|];
  }

  /** Number of occurrences of `c` in `s`. */
  function Count(s: string, c: char): nat {
    if s == [] then 0 else (if s[0] == c then 1 else 0) + Count(s[1..], c)
  }

  /** `s.split(sep)` for a one-character separator: the pieces between separators. */
  function Split(s: string, sep: char): (r: seq<string>)
    ensures |r| >= 1
  {
    if s == [] then [""]
    else if s[0] == sep then [""] + Split(s[1..], sep)
    else var rest := Split(s[1..], sep); [[s[0]] + rest[0]] + rest[1..]
  }

  /** `sep.join(pieces)`. */
  function Join(pieces: seq<string>, sep: char): string
    requires |pieces| >= 1
  {
    if |pieces| == 1 then pieces[0] else pieces[0] + [sep] + Join(pieces[1..], sep)
  }

  /** Splitting yields one more piece than there are separators. */
  lemma {:induction false} SplitLength(s: string, sep: char)
    ensures |Split(s, sep)| == Count(s, sep) + 1
  {
    if s != [] {
      SplitLength(s[1..], sep);
    }
  }

  /** No piece contains the separator. */
  lemma {:induction false} SplitDropsSeparator(s: string, sep: char)
    ensures forall p :: p in Split(s, sep) ==> sep !in p
  {
    if s != [] {
      SplitDropsSeparator(s[1..], sep);
      var rest := Split(s[1..], sep);
      if s[0] != sep {
        assert sep !in rest[0];
        assert forall p :: p in rest[1..] ==> p in rest;
      }
    }
  }

  /** Every character of every piece comes from the split string. */
  lemma {:induction false} SplitPiecesFromInput(s: string, sep: char)
    ensures forall p, i :: p in Split(s, sep) && 0 <= i < |p| ==> p[i] in s
  {
    if s != [] {
      SplitPiecesFromInput(s[1..], sep);
      var rest := Split(s[1..], sep);
      forall p, i | p in Split(s, sep) && 0 <= i < |p| ensures p[i] in s {
        if s[0] != sep && p == [s[0]] + rest[0] && i > 0 {
          assert p[i] == rest[0][i - 1];
        }
        if p in rest {
          assert p[i] in s[1..];
        }
      }
    }
  }

  /** Joining the pieces with the separator gives back the split string. */
  lemma {:induction false} SplitJoin(s: string, sep: char)
    ensures Join(Split(s, sep), sep) == s
  {
    if s != [] {
      SplitJoin(s[1..], sep);
      var rest := Split(s[1..], sep);
      if s[0] != sep {
        if |rest| == 1 {
          assert Split(s, sep) == [[s[0]] + rest[0]];
        } else {
          var r := Split(s, sep);
          assert r[1..] == rest[1..];
          assert Join(r, sep) == [s[0]] + rest[0] + [sep] + Join(rest[1..], sep);
        }
      }
    }
  }

  /** A string without the separator is a single piece. */
  lemma {:induction false} SplitNoSeparator(s: string, sep: char)
    requires sep !in s
    ensures Split(s, sep) == [s]
  {
    if s != [] {
      SplitNoSeparator(s[1..], sep);
      assert [s[0]] + s[1..] == s;
    }
  }

  /** A separator splits the string into the pieces of its two sides. */
  lemma {:induction false} SplitConcat(a: string, b: string, sep: char)
    ensures Split(a + [sep] + b, sep) == Split(a, sep) + Split(b, sep)
  {
    if a == [] {
      assert a + [sep] + b == [sep] + b;
      SplitCons(sep, b, sep);
    } else {
      var t := a[1..] + [sep] + b;
      assert a + [sep] + b == [a[0]] + t;
      assert a == [a[0]] + a[1..];
      SplitConcat(a[1..], b, sep);
      SplitCons(a[0], t, sep);
      SplitCons(a[0], a[1..], sep);
      ConsPieces(a[0], sep, Split(a[1..], sep), Split(b, sep));
    }
  }

  /** The first-character step of `Split` commutes with appending further pieces. */
  lemma ConsPieces(c: char, sep: char, left: seq<string>, right: seq<string>)
    requires |left| >= 1
    ensures (if c == sep then [""] + (left + right) else [[c] + (left + right)[0]] + (left + right)[1..])
      == (if c == sep then [""] + left else [[c] + left[0]] + left[1..]) + right
  {
    if c != sep {
      assert (left + right)[1..] == left[1..] + right;
    }
  }

  /** One step of `Split`, stated on a string with a known first character. */
  lemma SplitCons(c: char, t: string, sep: char)
    ensures Split([c] + t, sep) ==
      if c == sep then [""] + Split(t, sep) else [[c] + Split(t, sep)[0]] + Split(t, sep)[1..]
  {
    assert ([c] + t)[0] == c && ([c] + t)[1..] == t;
  }

  /** Splitting a join of separator-free pieces gives back the pieces. */
  lemma {:induction false} JoinSplit(pieces: seq<string>, sep: char)
    requires |pieces| >= 1
    requires forall i :: 0 <= i < |pieces| ==> sep !in pieces[i]
    ensures Split(Join(pieces, sep), sep) == pieces
  {
    SplitNoSeparator(pieces[0], sep);
    if |pieces| > 1 {
      JoinSplit(pieces[1..], sep);
      SplitConcat(pieces[0], Join(pieces[1..], sep), sep);
      assert [pieces[0]] + pieces[1..] == pieces;
    }
  }

  /** `needle in s` for a one-character needle. */
  predicate Contains(s: string, c: char) {
    c in s
  }
}

=== FILE: ui_store.dfy ===
/**
 * The UI store of the front end (frontend/src/store/ui.js): the notification list with its
 * `activeNotifications` filter, the five modal flags, the persisted interface flags and settings.
 * The clock reading and the random id of a new notification are parameters; the browser's
 * `localStorage` entry `starCourierUiSettings` is the field `storage`.
 */
module UiStore {
  import opened Wrappers

  /** One toast. `kind` is the source's `type` field (info, success, warning, error). */
  datatype Notification = Notification(id: string, message: string, kind: string, active: bool, timestamp: nat)

  /** The notifications still shown: the `activeNotifications` getter. */
  function Active(ns: seq<Notification>): (r: seq<Notification>)
    ensures |r| <= |ns|
  {
    if ns == [] then []
    else (if ns[0].active then [ns[0]] else []) + Active(ns[1..])
  }

  /** The shown list holds exactly the active notifications. */
  lemma {:induction false} ActiveMembers(ns: seq<Notification>)
    ensures forall n :: n in Active(ns) <==> n in ns && n.active
  {
    if ns != [] {
      ActiveMembers(ns[1..]);
      assert ns == [ns[0]] + ns[1..];
    }
  }

  /** Filtering distributes over concatenation. */
  lemma {:induction false} ActiveConcat(a: seq<Notification>, b: seq<Notification>)
    ensures Active(a + b) == Active(a) + Active(b)
  {
    if a != [] {
      assert (a + b)[0] == a[0];
      assert (a + b)[1..] == a[1..] + b;
      ActiveConcat(a[1..], b);
    } else {
      assert a + b == b;
    }
  }

  /** The position `findIndex` returns: the first notification with the id. */
  function IndexOf(ns: seq<Notification>, id: string): (r: Option<nat>)
    ensures r.Some? ==> r.value < |ns| && ns[r.value].id == id
    ensures r.Some? ==> forall j :: 0 <= j < r.value ==> ns[j].id != id
    ensures r.None? ==> forall j :: 0 <= j < |ns| ==> ns[j].id != id
  {
    if ns == [] then None
    else if ns[0].id == id then Some(0)
    else
      match IndexOf(ns[1..], id)
      case None => None
      case Some(i) => Some(i + 1)
  }

  /** `removeNotification(id)` without its deferred `splice`: the first match turns inactive. */
  function Deactivate(ns: seq<Notification>, id: string): (r: seq<Notification>)
    ensures |r| == |ns|
  {
    match IndexOf(ns, id)
    case None => ns
    case Some(i) => ns[i := ns[i].(active := false)]
  }

  /** The `type || 'info'` default of a new notification. */
  function KindOrInfo(kind: string): (r: string)
    ensures r != ""
    ensures kind != "" ==> r == kind
  {
    if kind == "" then "info" else kind
  }

  /** A new notification is shown at once, after the ones already shown. */
  lemma AddedIsShown(ns: seq<Notification>, n: Notification)
    requires n.active
    ensures Active(ns + [n]) == Active(ns) + [n]
  {
    ActiveConcat(ns, [n]);
  }

  /**
   * Removing drops exactly the first notification with the id from the shown list (and nothing
   * when no notification has it); with distinct ids no shown notification has the id afterwards.
   */
  lemma {:induction false} RemoveHides(ns: seq<Notification>, id: string)
    ensures IndexOf(ns, id).None? ==> Deactivate(ns, id) == ns
    ensures IndexOf(ns, id).Some? ==>
      var i := IndexOf(ns, id).value;
      Active(Deactivate(ns, id)) == Active(ns[..i]) + Active(ns[i + 1..])
    ensures (forall j, k :: 0 <= j < k < |ns| ==> ns[j].id != ns[k].id) ==>
      forall n :: n in Active(Deactivate(ns, id)) ==> n.id != id
  {
    match IndexOf(ns, id)
    case None =>
      ActiveMembers(ns);
      forall n | n in Active(ns) ensures n.id != id {
        var k :| 0 <= k < |ns| && ns[k] == n;
      }
    case Some(i) =>
      DeactivateAt(ns, i);
      if forall j, k :: 0 <= j < k < |ns| ==> ns[j].id != ns[k].id {
        DeactivatedNotShown(ns, id, i);
      }
  }

  /** Deactivating position `i` removes exactly that notification from the shown list. */
  lemma DeactivateAt(ns: seq<Notification>, i: nat)
    requires i < |ns|
    ensures Active(ns[i := ns[i].(active := false)]) == Active(ns[..i]) + Active(ns[i + 1..])
  {
    var r := ns[i := ns[i].(active := false)];
    var x := r[i];
    assert r == ns[..i] + [x] + ns[i + 1..];
    ActiveConcat(ns[..i] + [x], ns[i + 1..]);
    ActiveConcat(ns[..i], [x]);
    assert Active([x]) == [];
  }

  /** With distinct ids, deactivating the notification with the id leaves none with it shown. */
  lemma DeactivatedNotShown(ns: seq<Notification>, id: string, i: nat)
    requires i < |ns| && ns[i].id == id
    requires forall j, k :: 0 <= j < k < |ns| ==> ns[j].id != ns[k].id
    ensures forall n :: n in Active(ns[i := ns[i].(active := false)]) ==> n.id != id
  {
    var r := ns[i := ns[i].(active := false)];
    ActiveMembers(r);
    forall n | n in Active(r) ensures n.id != id {
      var k :| 0 <= k < |r| && r[k] == n;
      if k != i {
        assert r[k] == ns[k];
      }
    }
  }

  const MODAL_NAMES: seq<string> := ["inventory", "settings", "achievements", "saves", "help"]

  const CLOSED_MODALS: map<string, bool> :=
    map["inventory" := false, "settings" := false, "achievements" := false, "saves" := false, "help" := false]

  /** The `isModalOpen` getter. */
  predicate AnyOpen(modals: map<string, bool>) {
    exists k :: k in modals && modals[k]
  }

  /** `openModal` / `closeModal` on the flags: a known name gets `value`, anything else is ignored. */
  function SetModal(modals: map<string, bool>, name: string, value: bool): (r: map<string, bool>)
    ensures r.Keys == modals.Keys
    ensures name in modals ==> r[name] == value
    ensures forall k :: k in modals && k != name ==> r[k] == modals[k]
  {
    if name in modals then modals[name := value] else modals
  }

  /** `toggleModal` on the flags. */
  function Toggled(modals: map<string, bool>, name: string): (r: map<string, bool>)
    ensures r.Keys == modals.Keys
    ensures name in modals ==> r[name] == !modals[name]
    ensures forall k :: k in modals && k != name ==> r[k] == modals[k]
  {
    if name in modals then modals[name := !modals[name]] else modals
  }

  /** Toggling the same modal twice restores every flag. */
  lemma ToggleTwice(modals: map<string, bool>, name: string)
    ensures Toggled(Toggled(modals, name), name) == modals
  {
  }

  /** Opening a known modal makes `isModalOpen` true; closing it leaves the other modals as they were. */
  lemma OpenShows(modals: map<string, bool>, name: string)
    requires name in modals
    ensures AnyOpen(SetModal(modals, name, true))
    ensures AnyOpen(SetModal(modals, name, false)) <==> exists k :: k in modals && k != name && modals[k]
  {
    assert SetModal(modals, name, true)[name];
  }

  /** The text sizes `setTextSize` accepts. */
  predicate ValidTextSize(size: string) {
    size in ["small", "medium", "large"]
  }

  /** The `settings` object. */
  datatype Settings = Settings(
    textSize: string,
    animationsEnabled: bool,
    autoSaveEnabled: bool,
    autoSaveInterval: int,
    showTutorial: bool,
    language: string)

  const DEFAULT_SETTINGS: Settings := Settings("medium", true, true, 300000, true, "ru")

  /** An object spread over `settings`: the keys it carries (`Some`) and the keys it lacks. */
  datatype SettingsPatch = SettingsPatch(
    textSize: Option<string>,
    animationsEnabled: Option<bool>,
    autoSaveEnabled: Option<bool>,
    autoSaveInterval: Option<int>,
    showTutorial: Option<bool>,
    language: Option<string>)

  const EMPTY_PATCH: SettingsPatch := SettingsPatch(None, None, None, None, None, None)

  function Pick<T>(given: Option<T>, current: T): T {
    if given.Some? then given.value else current
  }

  /** `{ ...s, ...p }`. */
  function Merge(s: Settings, p: SettingsPatch): (r: Settings)
    ensures p == EMPTY_PATCH ==> r == s
  {
    Settings(
      Pick(p.textSize, s.textSize),
      Pick(p.animationsEnabled, s.animationsEnabled),
      Pick(p.autoSaveEnabled, s.autoSaveEnabled),
      Pick(p.autoSaveInterval, s.autoSaveInterval),
      Pick(p.showTutorial, s.showTutorial),
      Pick(p.language, s.language))
  }

  /** Every key of a settings object, as a patch. */
  function Full(s: Settings): (p: SettingsPatch)
    ensures forall t :: Merge(t, p) == s
  {
    SettingsPatch(Some(s.textSize), Some(s.animationsEnabled), Some(s.autoSaveEnabled),
                  Some(s.autoSaveInterval), Some(s.showTutorial), Some(s.language))
  }

  /**
   * A merge overrides exactly the keys the patch carries and keeps the others; merging the same
   * patch again changes nothing.
   */
  lemma MergeOverrides(s: Settings, p: SettingsPatch)
    ensures Merge(s, p).textSize == if p.textSize.Some? then p.textSize.value else s.textSize
    ensures Merge(s, p).animationsEnabled
            == if p.animationsEnabled.Some? then p.animationsEnabled.value else s.animationsEnabled
    ensures Merge(s, p).autoSaveEnabled == if p.autoSaveEnabled.Some? then p.autoSaveEnabled.value else s.autoSaveEnabled
    ensures Merge(s, p).autoSaveInterval
            == if p.autoSaveInterval.Some? then p.autoSaveInterval.value else s.autoSaveInterval
    ensures Merge(s, p).showTutorial == if p.showTutorial.Some? then p.showTutorial.value else s.showTutorial
    ensures Merge(s, p).language == if p.language.Some? then p.language.value else s.language
    ensures Merge(Merge(s, p), p) == Merge(s, p)
  {
  }

  /** `setAutoSaveSettings(enabled, interval)` on the settings: a falsy interval (0 or missing) is kept. */
  function AutoSave(s: Settings, enabled: bool, interval: Option<int>): (r: Settings)
    ensures r.autoSaveEnabled == enabled
    ensures r.autoSaveInterval == if interval.Some? && interval.value != 0 then interval.value else s.autoSaveInterval
    ensures r.(autoSaveEnabled := s.autoSaveEnabled, autoSaveInterval := s.autoSaveInterval) == s
  {
    var s' := s.(autoSaveEnabled := enabled);
    if interval.Some? && interval.value != 0 then s'.(autoSaveInterval := interval.value) else s'
  }

  /** The persisted part of the store. */
  datatype UiPrefs = UiPrefs(isDarkMode: bool, sidebarOpen: bool, soundEnabled: bool, musicEnabled: bool,
                         settings: Settings)

  const DEFAULT_PREFS: UiPrefs := UiPrefs(true, true, true, true, DEFAULT_SETTINGS)

  /** The parsed `starCourierUiSettings` object: a missing (or null) key is `None`. */
  datatype SavedUi = SavedUi(isDarkMode: Option<bool>, sidebarOpen: Option<bool>, soundEnabled: Option<bool>,
                             musicEnabled: Option<bool>, settings: SettingsPatch)

  /** The `localStorage` entry: missing or empty, a parseable object, or text `JSON.parse` rejects. */
  datatype UiSlot = NoSettings | Saved(saved: SavedUi) | Corrupt

  /** What `saveUiSettings` writes. */
  function Snapshot(p: UiPrefs): (u: SavedUi)
    ensures u.isDarkMode == Some(p.isDarkMode) && u.sidebarOpen == Some(p.sidebarOpen)
    ensures u.soundEnabled == Some(p.soundEnabled) && u.musicEnabled == Some(p.musicEnabled)
    ensures u.settings == Full(p.settings)
  {
    SavedUi(Some(p.isDarkMode), Some(p.sidebarOpen), Some(p.soundEnabled), Some(p.musicEnabled), Full(p.settings))
  }

  /** `loadUiSettings` on the current preferences: `??` for the flags, a spread for the settings. */
  function LoadPrefs(current: UiPrefs, slot: UiSlot): (r: UiPrefs)
    ensures !slot.Saved? ==> r == current
  {
    match slot
    case Saved(u) =>
      UiPrefs(Pick(u.isDarkMode, current.isDarkMode), Pick(u.sidebarOpen, current.sidebarOpen),
            Pick(u.soundEnabled, current.soundEnabled), Pick(u.musicEnabled, current.musicEnabled),
            Merge(current.settings, u.settings))
    case _ => current
  }

  /** Loading what was saved restores it whatever the store held before. */
  lemma SaveLoadRoundTrip(current: UiPrefs, p: UiPrefs)
    ensures LoadPrefs(current, Saved(Snapshot(p))) == p
  {
  }

  /** An entry saved before a settings key existed keeps the store's own value for that key. */
  lemma LoadKeepsMissingKeys(current: UiPrefs, u: SavedUi)
    requires u.settings.language.None? && u.isDarkMode.None?
    ensures LoadPrefs(current, Saved(u)).settings.language == current.settings.language
    ensures LoadPrefs(current, Saved(u)).isDarkMode == current.isDarkMode
  {
  }

  class UiStore {
    var notifications: seq<Notification>
    var modals: map<string, bool>
    var isDarkMode: bool
    var sidebarOpen: bool
    var soundEnabled: bool
    var musicEnabled: bool
    var settings: Settings
    var storage: UiSlot

    function Current(): UiPrefs
      reads this
    {
      UiPrefs(isDarkMode, sidebarOpen, soundEnabled, musicEnabled, settings)
    }

    /** The store's initial state over the browser's current entry. */
    constructor (storage: UiSlot)
      ensures notifications == [] && modals == CLOSED_MODALS && Current() == DEFAULT_PREFS
      ensures this.storage == storage
    {
      notifications := [];
      modals := CLOSED_MODALS;
      isDarkMode, sidebarOpen, soundEnabled, musicEnabled := true, true, true, true;
      settings := DEFAULT_SETTINGS;
      this.storage := storage;
    }

    function ActiveNotifications(): (r: seq<Notification>)
      reads this
      ensures r == Active(notifications)
    {
      Active(notifications)
    }

    function IsModalOpen(): (r: bool)
      reads this
      ensures r <==> AnyOpen(modals)
    {
      exists k :: k in modals && modals[k]
    }

    /** `addNotification`, with the fresh id and the clock reading given. */
    method AddNotification(message: string, kind: string, id: string, now: nat) returns (r: string)
      modifies this
      ensures r == id
      ensures notifications == old(notifications) + [Notification(id, message, KindOrInfo(kind), true, now)]
      ensures modals == old(modals) && Current() == old(Current()) && storage == old(storage)
    {
      notifications := notifications + [Notification(id, message, KindOrInfo(kind), true, now)];
      return id;
    }

    /** `removeNotification(id)`: the `findIndex` scan, then the first match turns inactive. */
    method RemoveNotification(id: string)
      modifies this
      ensures notifications == Deactivate(old(notifications), id)
      ensures modals == old(modals) && Current() == old(Current()) && storage == old(storage)
    {
      var i := 0;
      while i < |notifications| && notifications[i].id != id
        invariant 0 <= i <= |notifications|
        invariant forall j :: 0 <= j < i ==> notifications[j].id != id
      {
        i := i + 1;
      }
      if i < |notifications| {
        notifications := notifications[i := notifications[i].(active := false)];
      }
    }

    /** `clearNotifications`. */
    method ClearNotifications()
      modifies this
      ensures notifications == [] && modals == old(modals) && Current() == old(Current()) && storage == old(storage)
    {
      notifications := [];
    }

    method OpenModal(name: string)
      modifies this
      ensures modals == SetModal(old(modals), name, true)
      ensures notifications == old(notifications) && Current() == old(Current()) && storage == old(storage)
    {
      if name in modals {
        modals := modals[name := true];
      }
    }

    method CloseModal(name: string)
      modifies this
      ensures modals == SetModal(old(modals), name, false)
      ensures notifications == old(notifications) && Current() == old(Current()) && storage == old(storage)
    {
      if name in modals {
        modals := modals[name := false];
      }
    }

    method ToggleModal(name: string)
      modifies this
      ensures modals == Toggled(old(modals), name)
      ensures notifications == old(notifications) && Current() == old(Current()) && storage == old(storage)
    {
      if name in modals {
        modals := modals[name := !modals[name]];
      }
    }

    /** `closeAllModals`: the `forEach` over the modal keys. */
    method CloseAllModals()
      modifies this
      ensures modals.Keys == old(modals).Keys && (forall k :: k in modals ==> !modals[k])
      ensures !IsModalOpen()
      ensures notifications == old(notifications) && Current() == old(Current()) && storage == old(storage)
    {
      var closed := modals;
      var pending := modals.Keys;
      while pending != {}
        invariant closed.Keys == modals.Keys && pending <= modals.Keys
        invariant forall k :: k in closed && k !in pending ==> !closed[k]
        decreases |pending|
      {
        var k :| k in pending;
        closed := closed[k := false];
        pending := pending - {k};
      }
      modals := closed;
    }

    /** `saveUiSettings`. */
    method SaveUiSettings()
      modifies this
      ensures storage == Saved(Snapshot(Current()))
      ensures notifications == old(notifications) && modals == old(modals) && Current() == old(Current())
    {
      storage := Saved(Snapshot(Current()));
    }

    /** `updateSettings(patch)`: merge, then persist. */
    method UpdateSettings(patch: SettingsPatch)
      modifies this
      ensures Current() == old(Current()).(settings := Merge(old(settings), patch))
      ensures storage == Saved(Snapshot(Current()))
      ensures notifications == old(notifications) && modals == old(modals)
    {
      settings := Merge(settings, patch);
      SaveUiSettings();
    }

    /** `setTextSize(size)`: an unknown size changes nothing, not even the stored entry. */
    method SetTextSize(size: string)
      modifies this
      ensures ValidTextSize(size) ==> Current() == old(Current()).(settings := old(settings).(textSize := size))
                                      && storage == Saved(Snapshot(Current()))
      ensures !ValidTextSize(size) ==> Current() == old(Current()) && storage == old(storage)
      ensures notifications == old(notifications) && modals == old(modals)
    {
      if size == "small" || size == "medium" || size == "large" {
        settings := settings.(textSize := size);
        SaveUiSettings();
      }
    }

    /** `setAutoSaveSettings(enabled, interval)`. */
    method SetAutoSaveSettings(enabled: bool, interval: Option<int>)
      modifies this
      ensures Current() == old(Current()).(settings := AutoSave(old(settings), enabled, interval))
      ensures storage == Saved(Snapshot(Current()))
      ensures notifications == old(notifications) && modals == old(modals)
    {
      settings := settings.(autoSaveEnabled := enabled);
      if interval.Some? && interval.value != 0 {
        settings := settings.(autoSaveInterval := interval.value);
      }
      SaveUiSettings();
    }

    /** `loadUiSettings`: nothing changes when the entry is missing or unreadable. */
    method LoadUiSettings()
      modifies this
      ensures Current() == LoadPrefs(old(Current()), storage)
      ensures storage == old(storage) && notifications == old(notifications) && modals == old(modals)
    {
      if storage.Saved? {
        var loaded := LoadPrefs(Current(), storage);
        isDarkMode, sidebarOpen, soundEnabled, musicEnabled, settings :=
          loaded.isDarkMode, loaded.sidebarOpen, loaded.soundEnabled, loaded.musicEnabled, loaded.settings;
      }
    }

    /** `resetUiSettings`: the default flags and settings, persisted. */
    method ResetUiSettings()
      modifies this
      ensures Current() == DEFAULT_PREFS && storage == Saved(Snapshot(DEFAULT_PREFS))
      ensures notifications == old(notifications) && modals == old(modals)
    {
      isDarkMode, sidebarOpen, soundEnabled, musicEnabled := true, true, true, true;
      settings := DEFAULT_SETTINGS;
      SaveUiSettings();
    }
  }
}

=== FILE: wrappers.dfy ===
/** Failure-carrying results shared by every module of the model. */
module Wrappers {

  /** An optional value: a JavaScript `null`/`undefined` or a Python `None` is `None`. */
  datatype Option<+T> = None | Some(value: T)

  /** The outcome of an operation that either returns a value or raises/throws an error. */
  datatype Result<+T, +E> = Success(value: T) | Failure(error: E)
}
